=== FILE: README.md ===
# naviya_portfolio admin core, in Dafny

A model of the logic behind the admin side of a portfolio and micro-blog
site. Posts are called "thoughts". The model covers:

- The **block editor**:
  - The list operations: add, update, delete, move, drag-resize and the
    file picker.
  - `processBlocks`. It turns the blocks into one text body with inline
    media markers (`[Image: left, 50%]`, `[Audio]`) plus a parallel list of
    uploaded media.
  - `handleCreate`, which posts the result.
- The **admin routes**: create, update, delete, comment delete and the
  media-host clean-up route. Each is a pure decision function from the
  cookie jar, the server state and the request body to a response and the
  new state of the document store.
- The **two admin cookies** as a small state machine:
  - `isAdmin` is set by `/api/auth/login`.
  - `admin-authenticated` is set by `/api/admin/login`.
  - Each route checks one of them. The model also covers the middleware
    guard, logout and check.
- The **manage page**: a case-insensitive search filter, grouping by day,
  and the list update after a delete.
- The **simple admin form**: the local check before posting, the upload
  with one retry after a timeout, the media type it derives, and the
  video/image choice when a post is shown.
- The **theme** and **cursor-animation** preferences, each with its storage
  round trip.

## How the files map to the program

Uploads, the document store, the clock, SHA-1, the URL parser and `fetch`
are parameters. An upload is a function from a file to an answer or an
error message. A store failure is an optional message. A parsed pathname is
an optional string.

Shared helper modules:

| module | holds |
|---|---|
| `Wrappers` | `Option` and `Result` |
| `Strings` | prefix and substring tests, ASCII lower case, split and join on one character, `trim`, decimal printing |
| `Seqs` | an order-preserving `Filter` and the subsequence relation |
| `Json` | request-body values with JavaScript truthiness, member lookup and update |
| `Http` | cookie jars, cookie instructions and responses |
| `Store` | the `thoughts` collection and its `comments` subcollections |

Modules that model the program:

| module | models |
|---|---|
| `Blocks` (`blocks.dfy`) | the editor's list operations |
| `BodyEncoder` (`encoder.dfy`) | `uploadToCloudinary`, `processBlocks` and `handleCreate` of the block editor |
| `Manage` (`manage.dfy`) | the manage page |
| `AdminClient` (`admin_client.dfy`) | the simple admin form |
| `AdminCreate`, `AdminUpdate`, `AdminDelete`, `CommentDelete`, `CloudinaryDelete` | the routes |
| `Middleware` | the route guard |
| `AuthRoutes` | the two login routes, logout and check |
| `Sessions` | which cookie opens which route |
| `Theme`, `CursorAnimation` (`preferences.dfy`) | the two context providers |

Behaviour of the code worth noting:

- The block editor's body is `trim()`med at both ends, not only at the end.
- The block editor's title check is `!title`, so only the empty string is
  refused. A title of spaces passes.
- The admin login route does not check that its secret is set. With
  `ADMIN_PASSWORD` unset, a body without `password` logs in, because
  `undefined === undefined` (`AuthRoutes.AdminLoginWithoutSecret`).
- The media clean-up route always calls the media host's image destroy
  endpoint (`resources/image/destroy`), also for the id of a video or audio
  upload (`CloudinaryDelete.Post`).

## Model

| member | source | states |
|---|---|---|
| Blocks.AddBlock | app/thoughts/BlockBasedAdminClient.js:41-52 | exactly one block is appended at the end, with the given id and type, empty content, no file, alignment `left`, size `medium` and no width; every earlier block is unchanged |
| Blocks.Apply | app/thoughts/BlockBasedAdminClient.js:57 | the object spread sets the named field to the value and leaves each of the other six fields as it was |
| Blocks.UpdateBlock | app/thoughts/BlockBasedAdminClient.js:55-59 | length and order are kept; a block with another id is unchanged; every block with the id has the field set and all its other fields unchanged |
| Blocks.UpdateBlockIdempotent | app/thoughts/BlockBasedAdminClient.js:55-59 | issuing the same update twice gives the list one update gives |
| Blocks.UpdateAbsentId | app/thoughts/BlockBasedAdminClient.js:55-59 | an id no block carries leaves the list as it was |
| Blocks.DeleteBlock | app/thoughts/BlockBasedAdminClient.js:62-64 | no block with the id remains; every block with another id remains as often as it occurred; nothing else appears; the result is an order-preserving subsequence of the input |
| Blocks.DeleteAbsentId | app/thoughts/BlockBasedAdminClient.js:62-64 | deleting an id no block carries changes nothing |
| Blocks.AddThenDelete | app/thoughts/BlockBasedAdminClient.js:41-64 | adding a block under a fresh id and then deleting that id gives back the original list |
| Blocks.MoveBlock | app/thoughts/BlockBasedAdminClient.js:67-73 | the result is a permutation of the same length; `up` swaps with the previous block and any other direction with the next; a target out of range leaves the list unchanged |
| Blocks.SwapIsPermutation | app/thoughts/BlockBasedAdminClient.js:71 | swapping two positions keeps the multiset of blocks |
| Blocks.MoveUpThenDown | app/thoughts/BlockBasedAdminClient.js:67-73 | moving block i up and then moving block i-1 down restores the list |
| Blocks.MoveDownThenUp | app/thoughts/BlockBasedAdminClient.js:67-73 | moving block i down and then moving block i+1 up restores the list |
| Blocks.WidthOr70 | app/thoughts/BlockBasedAdminClient.js:123 | `widthPercent \|\| 70` gives 70 for an absent or zero width and the set width otherwise; an absent or zero width is the only way to get 70 from a width other than 70 |
| Blocks.Round | app/thoughts/BlockBasedAdminClient.js:602 | `Math.round` gives the integer within half a unit below or above, with halves going up |
| Blocks.ResizedWidth | app/thoughts/BlockBasedAdminClient.js:595-602 | a drag always stores a width in [20, 100]: 20 when the raw width is at most 20, 100 when it is at least 100, and the rounded raw width in between |
| Blocks.Resize | app/thoughts/BlockBasedAdminClient.js:598-603 | the dragged block gets the clamped, rounded width measured from its starting width, or 70 when it had none; every other field and every other block stays unchanged |
| Blocks.PickFileAsWritten | app/thoughts/BlockBasedAdminClient.js:695-702 | the picker as written keeps the list's length and every block with another id; what it does to the picked block is stated by `Blocks.PickFileAsWrittenLosesFile` |
| Blocks.PickFileAsWrittenLosesFile | app/thoughts/BlockBasedAdminClient.js:696-701 | when a block with no width has a file picked, its file stays unset and only the width 70 is kept |
| Blocks.PickFile | app/thoughts/BlockBasedAdminClient.js:695-702 | the picker as intended: the block gets the file; its width becomes 70 when it had none and is kept otherwise; its content and alignment are kept; every other block is unchanged |
| Blocks.PickFileAsWrittenWithWidth | app/thoughts/BlockBasedAdminClient.js:699-701 | for a block that already has a width, the picker as written and as intended agree |
| BodyEncoder.MediaTypeOf | app/thoughts/BlockBasedAdminClient.js:91 | an upload stored as a video has type `video/*`; otherwise the file's MIME type, or the service's format when the MIME type is empty |
| BodyEncoder.EntryOf | app/thoughts/BlockBasedAdminClient.js:117-140 | a media entry has the block's kind and the upload's url; image and video entries carry the block's alignment or `center` and its width or 70 |
| BodyEncoder.MarkerMatchesChunk | app/thoughts/BlockBasedAdminClient.js:119-141 | the marker a media block adds to the body names its entry's kind and repeats the entry's alignment and width, whatever the url |
| BodyEncoder.RawBodyAppend | app/thoughts/BlockBasedAdminClient.js:110-143 | the untrimmed body of two block lists put together is the two bodies put together, so each block adds text independently of the others |
| BodyEncoder.TextDividerTextBody | app/thoughts/BlockBasedAdminClient.js:110-145 | the blocks text `Hello`, divider and text `World` give the body `Hello\n\n---\n\nWorld` |
| BodyEncoder.MediaBlocks | app/thoughts/BlockBasedAdminClient.js:117-136 | every block that gets a media entry is an image, video or audio block with a file |
| BodyEncoder.MediaBlocksIsFilter | app/thoughts/BlockBasedAdminClient.js:110-143 | the blocks with media entries are exactly the image, video and audio blocks with a file, in block order |
| BodyEncoder.BlockUploads | app/thoughts/BlockBasedAdminClient.js:117-136 | one upload is planned per media block, of that block's file, in block order |
| BodyEncoder.BlockUploadsPrefix | app/thoughts/BlockBasedAdminClient.js:110-143 | the uploads planned for a prefix of the blocks are a prefix of those planned for all of them |
| BodyEncoder.EncodeBlock | app/thoughts/BlockBasedAdminClient.js:111-142 | one turn of the loop: text, quote and divider add their text; a media block with a file is uploaded and adds its marker and entry; a failed upload stops with its message |
| BodyEncoder.EncodeBlocks | app/thoughts/BlockBasedAdminClient.js:110-143 | the uploads made are a prefix of those planned and all but the last succeeded; the loop succeeds exactly when every planned upload succeeds; on success the body is every block's text in order and the k-th entry belongs to the k-th media block |
| BodyEncoder.MarkersMatch | app/thoughts/BlockBasedAdminClient.js:119-141 | the chunk the k-th media block adds to the body is the marker of the k-th media entry |
| BodyEncoder.ProcessBlocks | app/thoughts/BlockBasedAdminClient.js:96-146 | the main image is uploaded first and sets only `mediaUrl` and `mediaType`; the first failed upload ends the run with its message; on success the body is the trimmed block text and the media list corresponds entry by entry to the media blocks |
| BodyEncoder.CreateRequest | app/thoughts/BlockBasedAdminClient.js:172-182 | the posted body carries the title, the processed body, the main image's url and type (null when absent) and one JSON entry per media entry |
| BodyEncoder.HandleCreate | app/thoughts/BlockBasedAdminClient.js:148-185 | an empty title is refused before any upload; otherwise the request is sent exactly when every planned upload succeeds, with the trimmed body, the main image's stored url and derived type (null without a main image), and as k-th media item the entry built from where the k-th media block's file was stored; a failure reports the failed upload's message |
| BodyEncoder.MediaListNotStored | app/api/admin/create/route.js:73-83 | the media list the block editor posts is never stored: the create route writes the same record as for the request without it |
| Manage.FilterThoughts | app/thoughts/manage/page.js:67-73 | a thought is kept exactly when its lower-cased title or content contains the lower-cased term; a thought with neither is never kept; the result is an order-preserving subsequence of the loaded list |
| Manage.SearchIgnoresCase | app/thoughts/manage/page.js:68-71 | a term and its lower-case form select the same thoughts |
| Manage.EmptySearch | app/thoughts/manage/page.js:70-71 | an empty term keeps exactly the thoughts with a title or a content, even an empty one |
| Manage.OnDate | app/thoughts/manage/page.js:76-83 | one day's thoughts: each is from the list and on that day, and each thought of that day is among them |
| Manage.OnDateAppend | app/thoughts/manage/page.js:76-83 | a day's thoughts of two lists put together are the two lists' day thoughts put together |
| Manage.OnDateIsFilter | app/thoughts/manage/page.js:76-83 | a day's thoughts are the list filtered on that day, in list order |
| Manage.GroupByDate | app/thoughts/manage/page.js:76-83 | the groups have distinct days, exactly the days of the list; each group holds that day's thoughts in list order; the group sizes sum to the list's length |
| Manage.GroupStep | app/thoughts/manage/page.js:78-82 | one step of the `reduce` keeps the groups a faithful description of the list grown by one thought |
| Manage.PushShape | app/thoughts/manage/page.js:78-81 | pushing a thought appends it to its day's group, or opens a new group for the day at the end; every other group is unchanged |
| Manage.PushDistinct | app/thoughts/manage/page.js:78-81 | pushing keeps the group days distinct |
| Manage.PushTotal | app/thoughts/manage/page.js:78-81 | pushing adds exactly one thought over all groups |
| Manage.AfterDelete | app/thoughts/manage/page.js:52-57 | after a successful delete no thought with the id remains and every other thought does, as often as before and in order; after a failed one the list is unchanged |
| Manage.AfterDeleteIdempotent | app/thoughts/manage/page.js:52-57 | once a delete has succeeded, deleting the same id again leaves the list as it is, whatever the second response says |
| AdminClient.RetryPolicy | app/thoughts/AdminClient.js:64-93 | one or two attempts; a second one happens exactly when the first attempt threw an abort error; with no response there is always an error to report |
| AdminClient.UploadWithRetry | app/thoughts/AdminClient.js:64-93 | the loop returns the response and last error the retry policy gives, after as many attempts; attempt k starts with timeout 30000 ms for k = 1 and 45000 ms after |
| AdminClient.NoResponseMessage | app/thoughts/AdminClient.js:95-97 | with no response, the error is the last error's message when it has one, and the default text otherwise; never empty |
| AdminClient.CloudMessage | app/thoughts/AdminClient.js:103 | the service's own error message when it gives a non-empty one; otherwise the serialised body, cut to its first 200 characters |
| AdminClient.StatusMessage | app/thoughts/AdminClient.js:101-105 | the error a non-ok upload response with a parsed body raises names its status, then after `: ` gives the service's message as `AdminClient.CloudMessage` states it |
| AdminClient.SameMediaTypeAsEditor | app/thoughts/AdminClient.js:107 | this form derives the same media type from an upload's answer as the block editor does |
| AdminClient.CreateRequest | app/thoughts/AdminClient.js:112-116 | the posted body carries the title, the content, the media url and the media type |
| AdminClient.HandleCreate | app/thoughts/AdminClient.js:29-116 | refused with no upload exactly when title, content and file are all empty; without a file it posts at once with null media; with a file it fails with the no-response message, the parser's message for a body that does not parse, the status message for a non-ok reply, or the engine's message for a `null` body, and otherwise posts the stored url and derived type |
| AdminClient.RenderMedia | app/thoughts/AdminClient.js:215-222 | a post without a truthy media url shows no media; otherwise it shows its media url, in a video player exactly when the media type starts with `video`, and in an image otherwise |
| AdminClient.VideoUploadShowsAsVideo | app/thoughts/AdminClient.js:215-222 | a file the upload service stored as a video is shown as a video once the create route has written the post |
| AdminCreate.InitAdminSdk | app/api/admin/create/route.js:11-58 | an existing app is kept; otherwise the key variable, the path variable and the fallback file are tried in that order, and the first that works is used |
| AdminCreate.PostAfterStartup | app/api/admin/create/route.js:60-70 | after start-up with no working credential source, every authorised create is refused as misconfigured and nothing is written; with any working source the handler behaves as with the SDK ready |
| AdminCreate.StoredRecord | app/api/admin/create/route.js:77-83 | the stored record has exactly title, content, mediaUrl, mediaType and createdAt; each truthy value is kept and each falsy one becomes null |
| AdminCreate.Post | app/api/admin/create/route.js:62-89 | 401 exactly when `isAdmin` is not `1`, checked first; then 500 without the SDK; a malformed body escapes uncaught; success returns the fresh id the store assigns and adds the record under it; nothing is written otherwise |
| AdminCreate.IgnoresAdditionalMedia | app/api/admin/create/route.js:72-83 | an `additionalMedia` member in the body changes neither the response nor the store |
| AdminDelete.LocalPublicId | app/api/admin/delete/route.js:26-28 | the local id is the last `/`-segment up to its first `.`, with no `.` or `/` in it |
| AdminDelete.LocalIdDiffersFromPublicId | app/api/admin/delete/route.js:26-35 | for a file name with two dots, the local id stops at the first dot while the clean-up route's id stops at the last, so the two differ |
| AdminDelete.Cleanup | app/api/admin/delete/route.js:23-40 | the clean-up request is sent exactly for a truthy string `mediaUrl`, and it carries the full url |
| AdminDelete.Post | app/api/admin/delete/route.js:5-51 | 401 exactly without the `isAdmin` cookie; then 500 without the SDK; 500 with the parser's or destructuring message for a malformed body; 400 for a falsy id; once the id is truthy the clean-up request for the media url is made whatever follows, and none is made otherwise; then 500 for an id that is not a document id, and 500 with the store's message when the delete fails; success deletes exactly that thought; nothing is deleted otherwise; a warning is logged exactly when a truthy media url is not a string or its clean-up call fails |
| AdminDelete.CleanupFailureIsNonFatal | app/api/admin/delete/route.js:24-44 | a failing clean-up call is only logged: the response, the store and the clean-up request are those of a clean-up that succeeds |
| AdminUpdate.UpdateData | app/api/admin/update/route.js:19-25 | the update always sets `updatedAt`; it carries title, content and additionalMedia exactly when they are not `undefined`, and nothing else |
| AdminUpdate.Post | app/api/admin/update/route.js:5-34 | 401 exactly without the `admin-authenticated` session; 500 with the parser's or destructuring message for a malformed body; 400 for a falsy id; 500 for an id that is not a document id, with the store's message when the update fails, and with the NOT_FOUND message for a missing thought; success merges the update into that thought only, leaving its other fields and all other thoughts and comments unchanged |
| CommentDelete.Post | app/api/admin/comments/delete/route.js:5-31 | 401 exactly without the session; 500 with the parser's or destructuring message for a malformed body; 400 when either id is missing; 500 when a truthy id is not a document id, and with the store's message when the delete fails; success removes exactly that comment and leaves the thoughts untouched |
| CloudinaryDelete.IndexOf | app/api/cloudinary/delete/route.js:11 | `indexOf` finds the first occurrence, or none when absent |
| CloudinaryDelete.StripExtension | app/api/cloudinary/delete/route.js:9 | the file name is cut before its last `.`, and becomes empty when it has no `.` |
| CloudinaryDelete.StripLastSuffix | app/api/cloudinary/delete/route.js:9 | only the final suffix is removed: `a.b.jpg` keeps `a.b` |
| CloudinaryDelete.PublicIdOfPath | app/api/cloudinary/delete/route.js:6-13 | without an `upload` segment before the last one, the id is the stripped last segment |
| CloudinaryDelete.PublicIdAfterUpload | app/api/cloudinary/delete/route.js:8-12 | with `upload` in the path, the id is the segments after it, version segments included, followed by the stripped file name, joined by `/` |
| CloudinaryDelete.ExtractPublicId | app/api/cloudinary/delete/route.js:3-15 | a url that does not parse gives null; otherwise the id of its path, as `CloudinaryDelete.PublicIdOfPath` and `CloudinaryDelete.PublicIdAfterUpload` state it |
| CloudinaryDelete.BareNameExample | app/api/cloudinary/delete/route.js:9-13 | the path `/photo` gives the empty id |
| CloudinaryDelete.StringToSign | app/api/cloudinary/delete/route.js:29 | the signed string is `public_id=<id>&timestamp=`, then the timestamp in decimal, then the secret |
| CloudinaryDelete.Post | app/api/cloudinary/delete/route.js:17-43 | a url that does not parse or gives an empty id gets 400 before the credentials are checked; missing credentials give 500 and no destroy call; otherwise the destroy call goes to the image endpoint and carries the path's id, the timestamp in seconds, the key and the signature |
| Middleware.Decide | middleware.js:3-18 | a path passes exactly when it is not under `/thoughts/admin` or the `admin-authenticated` cookie is `true`; a refused path is redirected to `/admin/login` |
| Middleware.LoginExclusionRedundant | middleware.js:7 | no path under `/thoughts/admin` starts with `/admin/login`, so the second conjunct never excludes anything |
| Middleware.GuardConditionIsGuarded | middleware.js:7 | the guard condition as written holds exactly for the paths under `/thoughts/admin` |
| Middleware.AdminPathsUnguarded | middleware.js:7-21 | the `/admin/...` paths are matched but never guarded |
| Middleware.Route | middleware.js:3-22 | a request is redirected exactly when its path is matched and guarded and it has no session |
| AuthRoutes.AuthLogin | app/api/auth/login/route.js:3-16 | an unset or empty secret gives 500 whatever is sent; an exact match sets `isAdmin=1` and nothing else; a mismatch gives 401 and sets no cookie |
| AuthRoutes.AdminLogin | app/api/admin/login/route.js:4-28 | a malformed body gives 500; the cookie is set exactly when the password strictly equals the secret, httpOnly, sameSite strict, a week long, on `/`, and secure exactly in production; a mismatch gives 401 |
| AuthRoutes.SessionOptions | app/api/admin/login/route.js:12-18 | the cookie options: secure exactly in production; the rest as fixed attributes. What the session cookie means is stated by `AuthRoutes.AdminLogin` |
| AuthRoutes.AdminLoginWithoutSecret | app/api/admin/login/route.js:6-9 | with the secret unset, an empty body logs in |
| AuthRoutes.Logout | app/api/auth/logout/route.js:3-7 | always ok, and the jar afterwards is the jar without `admin-authenticated` |
| AuthRoutes.Check | app/api/auth/check/route.js:3-6 | true exactly when `admin-authenticated` is `true`; what that means across logins and logout is stated by `AuthRoutes.CheckFollowsLoginAndLogout` and `Sessions.CheckMatchesGuard` |
| AuthRoutes.CheckFollowsLoginAndLogout | app/api/auth/check/route.js:3-6 | check reports true after a successful admin login and false after logout; a refused login leaves its answer as it was |
| Sessions.PostingAllowedIff | app/api/admin/create/route.js:64-65 | create and delete accept a jar exactly when `isAdmin` is `1` |
| Sessions.SessionOpenIff | middleware.js:8-10 | the middleware, update, comment delete and check accept a jar exactly when `admin-authenticated` is `true` |
| Sessions.CheckMatchesGuard | app/api/auth/check/route.js:3-6 | check answers true exactly when the middleware would serve a guarded page to the same browser |
| Sessions.AuthLoginOpensPostingOnly | app/api/auth/login/route.js:9-13 | a successful `/api/auth/login` opens create and delete and leaves the session routes as they were |
| Sessions.AdminLoginOpensSessionOnly | app/api/admin/login/route.js:9-20 | a successful `/api/admin/login` opens the session routes and leaves create and delete as they were |
| Sessions.LogoutKeepsPosting | app/api/auth/logout/route.js:5 | logout closes the session routes, keeps create and delete as they were, and a second logout changes nothing |
| Sessions.LogoutRedirectsGuardedPages | middleware.js:7-13 | after logout every guarded page redirects to the login page |
| Store.Add | app/api/admin/create/route.js:77 | the new document is stored under the fresh id the store assigns, so the collection grows by exactly one, and nothing else changes |
| Store.Update | app/api/admin/update/route.js:27 | an update of a missing thought fails; otherwise the fields are merged into that thought only |
| Store.DeleteThought | app/api/admin/delete/route.js:44 | exactly that thought is removed; its comments stay |
| Store.DeleteComment | app/api/admin/comments/delete/route.js:19-24 | exactly that comment is removed; the thoughts stay |
| Theme.Initial | app/context/ThemeContext.js:7-8 | the first render is `light`, not mounted |
| Theme.Preferred | app/context/ThemeContext.js:12-19 | the mounted theme is always `light` or `dark`, whatever storage holds; a stored valid theme is kept, and otherwise it is dark exactly when the system prefers dark |
| Theme.Mount | app/context/ThemeContext.js:10-21 | after mounting, the theme is the preferred one, valid and written out |
| Theme.Persist | app/context/ThemeContext.js:23-28 | once mounted, the document attribute and storage carry the theme, storage gains only the theme key, and no other stored value changes; before that nothing is written |
| Theme.Flip | app/context/ThemeContext.js:31 | `light` becomes `dark` and anything else becomes `light` |
| Theme.Toggle | app/context/ThemeContext.js:30-32 | toggling flips the theme and keeps the state valid and written out |
| Theme.ToggleInvolution | app/context/ThemeContext.js:30-32 | toggling twice restores a valid theme |
| Theme.RestoredOnNextMount | app/context/ThemeContext.js:12-27 | the theme a mounted provider shows is the one the next page load restores, whatever the system preference |
| Theme.RunKeepsInvariant | app/context/ThemeContext.js:7-32 | through any run of mounts and toggles the theme stays `light` or `dark`, once mounted it is written out, and nothing is written while unmounted |
| CursorAnimation.Initial | app/context/CursorAnimationContext.js:11-12 | the first render is enabled and not mounted; what the first load then shows is stated by `CursorAnimation.FirstLoad` |
| CursorAnimation.FirstLoad | app/context/CursorAnimationContext.js:11-21 | on the first page load the animation is on unless storage holds a value other than `true`, and nothing is written |
| CursorAnimation.Parse | app/context/CursorAnimationContext.js:19 | only the text written for an enabled preference reads as enabled, so any other stored text reads as disabled; each of the two texts written reads back to itself |
| CursorAnimation.Show | app/context/CursorAnimationContext.js:26 | a preference is stored as `true` or `false` |
| CursorAnimation.ParseShow | app/context/CursorAnimationContext.js:19-26 | reading back a stored preference gives the same preference |
| CursorAnimation.Mount | app/context/CursorAnimationContext.js:14-21 | a stored value decides the preference; with nothing stored it is kept; nothing is written |
| CursorAnimation.Toggle | app/context/CursorAnimationContext.js:23-29 | toggling negates the preference and stores it; storage gains only the preference key, and no other stored value changes |
| CursorAnimation.ToggleTwice | app/context/CursorAnimationContext.js:23-29 | two toggles restore the preference |
| CursorAnimation.RestoredOnNextMount | app/context/CursorAnimationContext.js:17-26 | after a toggle, the next page load restores the toggled value |
| CursorAnimation.UseCursorAnimation | app/context/CursorAnimationContext.js:44-50 | the hook never throws: outside a provider it reads the default, inside it reads the provider's state |

## Left out

- Network, upload and store calls are parameters: `fetch`, `uploadToCloudinary`, Firestore `add`/`update`/`delete`, `getDocs`. So are SHA-1, `new URL(...)`, `Date.now()` and `new Date()`. Their behaviour is not modelled.
- Block ids from `Date.now()` are parameters, and nothing assumes they are unique.
- Blocks.MoveBlock: requires `0 <= index < |blocks|`. The editor only passes the index of a rendered block.
- Timers and aborts: the 30 s safety timeout of the simple form and the `AbortController` timers are not modelled. Only each attempt's timeout value and whether it threw an abort error are kept.
- Blocks.Resize: the pixel-to-percent arithmetic is left out; the drag's percent change is a parameter. The stale `contentBlocks` snapshot during a drag is also left out.
- JSON serialisation (`JSON.stringify`) is a parameter of `AdminClient.HandleCreate`.
- What happens after the create request is left out: its response, the form reset and `load()`.
- `load()` and the other page fetches are left out.
- Manage: the sort of the day keys (`sortedDates`) is left out, because it parses date strings. `toDateString()` is an abstract day key.
- Manage.SearchIgnoresCase: lower-casing is ASCII only; Unicode case mapping is not modelled.
- AdminClient.StatusMessage: `JSON.stringify` is a parameter. A truthy `error.message` that is not a string is used by the source through the template string; the model only uses a non-empty string message and otherwise falls back to the serialised body.
- `err.message || String(err)` is an error's message string in the routes.
- Store.DocumentId: the store's own error text for a value that is not a document id is given one fixed wording. An id with slashes is always refused, but the store accepts one with an even number of slashes as the path of a deeper document, which this store has no place for.
- AdminClient.RenderMedia: a truthy `mediaType` that is not a string would make `startsWith` throw; the model shows an image instead.
- Media blocks without a file and unknown block types add nothing to the body; the model covers them but no renderer or parser of the body exists, so there is no decoder.
- Cookie expiry over time is not modelled: a set cookie stays set.
- BodyEncoder.EncodeBlocks: the upload service's answer depends only on the file, so two uploads of equal files get the same answer.
- AdminClient.HandleCreate: the text of the `TypeError` a `null` reply body raises is the engine's; the model uses one fixed message.
- JSX, styling, the page shells and `lib/firebaseAdmin.js` are not part of this model.

## Findings

| source | as written | input that shows it | evidently intended | confidence | as-written member | corrected member |
|---|---|---|---|---|---|---|
| app/thoughts/BlockBasedAdminClient.js:695-702 | the file input's `onChange` calls `onUpdate(id, 'file', file)` and then `onUpdate(id, 'widthPercent', 70)`. Both calls map over the same render's `contentBlocks`, so the second result replaces the first | an image block with no width set; pick a file: the block ends with width 70 and no file | the block gets the file and, when it had no width, the width 70 | not executed | Blocks.PickFileAsWritten (shown by Blocks.PickFileAsWrittenLosesFile) | Blocks.PickFile |

=== FILE: admin_client.dfy ===
/** The simple admin form (`app/thoughts/AdminClient.js`): the local check
  * before posting, the upload with one retry after a timeout, the media
  * type it derives, and how a post's media is shown. */
module AdminClient {
  import opened Wrappers
  import opened Strings
  import opened Json
  import opened Blocks
  import BodyEncoder
  import AdminCreate
  import Store

  // ---------------------------------------------------------------------------
  // Validation
  // ---------------------------------------------------------------------------

  const NothingToPostMessage: string := "Please provide a title, content or a file."

  /** `!title && !content && !file`. */
  predicate NothingToPost(title: string, content: string, file: Option<MediaFile>) {
    title == "" && content == "" && file.None?
  }

  // ---------------------------------------------------------------------------
  // The upload retry loop
  // ---------------------------------------------------------------------------

  /** An error thrown by `fetch`: its `name` (`"AbortError"` when the
    * attempt's timer aborted it) and its `message` (empty when absent). */
  datatype FetchError = FetchError(name: string, message: string)

  /** A response from the upload service: its status and what `res.json()`
    * gives, a parsed value or the parser's error message. */
  datatype CdnReply = CdnReply(status: int, data: Result<Value, string>)

  /** What one `fetch` attempt ends with. */
  datatype Attempt = Responded(reply: CdnReply) | Threw(err: FetchError)

  /** The upload service, as a function of the attempt number and the
    * attempt's timeout in milliseconds. */
  type Fetch = (nat, int) -> Attempt

  const MaxAttempts: nat := 2

  /** `attempt === 1 ? 30000 : 45000`. */
  function TimeoutFor(attempt: nat): int {
    if attempt == 1 then 30000 else 45000
  }

  predicate IsAbort(e: FetchError) {
    e.name == "AbortError"
  }

  /** The loop's result: the response, if any, the last error seen, and the
    * number of attempts made. */
  datatype RetryResult = RetryResult(res: Option<CdnReply>, lastErr: Option<FetchError>, attempts: nat)

  /** The retry policy written out case by case: a response or a non-abort
    * error ends it after the first attempt; an aborted first attempt is
    * retried once. */
  function RetryPolicy(fetch: Fetch): (r: RetryResult)
    ensures 1 <= r.attempts <= MaxAttempts
    ensures r.attempts == 2 <==> fetch(1, 30000).Threw? && IsAbort(fetch(1, 30000).err)
    ensures r.res.None? ==> r.lastErr.Some?
  {
    var first := fetch(1, TimeoutFor(1));
    if first.Responded? then RetryResult(Some(first.reply), None, 1)
    else if !IsAbort(first.err) then RetryResult(None, Some(first.err), 1)
    else
      var second := fetch(2, TimeoutFor(2));
      if second.Responded? then RetryResult(Some(second.reply), Some(first.err), 2)
      else RetryResult(None, Some(second.err), 2)
  }

  /** The `while (attempt < maxAttempts)` loop. `timeouts` records the timeout
    * each attempt was started with. */
  method UploadWithRetry(fetch: Fetch) returns (res: Option<CdnReply>, lastErr: Option<FetchError>, timeouts: seq<int>)
    ensures res == RetryPolicy(fetch).res && lastErr == RetryPolicy(fetch).lastErr
    ensures |timeouts| == RetryPolicy(fetch).attempts
    ensures forall k :: 0 <= k < |timeouts| ==> timeouts[k] == TimeoutFor(k + 1)
  {
    var attempt: nat := 0;
    res, lastErr, timeouts := None, None, [];
    while attempt < MaxAttempts
      invariant attempt <= MaxAttempts
      invariant |timeouts| == attempt
      invariant forall k :: 0 <= k < attempt ==> timeouts[k] == TimeoutFor(k + 1)
      invariant res.None?
      invariant attempt == 0 ==> lastErr.None?
      invariant attempt >= 1 ==> fetch(1, 30000).Threw? && IsAbort(fetch(1, 30000).err)
      invariant attempt == 1 ==> lastErr == Some(fetch(1, 30000).err)
      invariant attempt == 2 ==> fetch(2, 45000).Threw? && IsAbort(fetch(2, 45000).err)
      invariant attempt == 2 ==> lastErr == Some(fetch(2, 45000).err)
      decreases MaxAttempts - attempt
    {
      attempt := attempt + 1;
      var timeoutMs := TimeoutFor(attempt);
      timeouts := timeouts + [timeoutMs];
      var outcome := fetch(attempt, timeoutMs);
      if outcome.Responded? {
        res := Some(outcome.reply);
        break;
      }
      lastErr := Some(outcome.err);
      if !IsAbort(outcome.err) {
        break;
      }
    }
  }

  // ---------------------------------------------------------------------------
  // After the loop
  // ---------------------------------------------------------------------------

  const NoResponseDefault: string := "Cloudinary upload failed (no response)"

  /** `lastErr?.message || 'Cloudinary upload failed (no response)'`. */
  function NoResponseMessage(lastErr: Option<FetchError>): (m: string)
    ensures lastErr.Some? && lastErr.value.message != "" ==> m == lastErr.value.message
    ensures m != ""
  {
    if lastErr.Some? && lastErr.value.message != "" then lastErr.value.message else NoResponseDefault
  }

  /** `res.ok`. */
  predicate Ok(status: int) {
    200 <= status <= 299
  }

  /** `data?.error?.message || JSON.stringify(data).slice(0, 200)`, with the
    * serialisation passed in: the service's own message when it gives a
    * non-empty one, otherwise the serialised body cut to its first 200
    * characters. */
  function CloudMessage(data: Value, serialized: string): (c: string)
    ensures var m := Prop(Prop(data, "error"), "message");
            m.Str? && m.s != "" ==> c == m.s
    ensures var m := Prop(Prop(data, "error"), "message");
            !(m.Str? && m.s != "") ==>
              && c <= serialized
              && |c| == (if |serialized| <= 200 then |serialized| else 200)
  {
    var m := Prop(Prop(data, "error"), "message");
    if m.Str? && m.s != "" then m.s
    else if |serialized| <= 200 then serialized else serialized[..200]
  }

  /** The error a non-ok upload response with a parsed body raises: it names
    * the status and then gives the service's message. */
  function StatusMessage(status: int, data: Value, serialized: string): (m: string)
    ensures StartsWith(m, "Cloudinary upload failed (status " + IntToString(status) + ")")
    ensures m == "Cloudinary upload failed (status " + IntToString(status) + "): " + CloudMessage(data, serialized)
  {
    var head := "Cloudinary upload failed (status " + IntToString(status) + ")";
    var m := head + ": " + CloudMessage(data, serialized);
    assert m[..|head|] == head;
    m
  }

  /** The message of the `TypeError` that reading `secure_url` from a `null`
    * body raises; its exact wording is the engine's. */
  const NullBodyMessage: string := "Cannot read properties of null (reading 'secure_url')"

  // `data.resource_type === 'video' ? 'video/*' : file.type || data.format`
  function MediaTypeField(file: MediaFile, data: Value): Value {
    if Prop(data, "resource_type") == Str("video") then Str("video/*")
    else if file.mimeType != "" then Str(file.mimeType)
    else Prop(data, "format")
  }

  /** This form and the block editor derive the same media type from the
    * same upload answer. */
  lemma SameMediaTypeAsEditor(file: MediaFile, data: Value, url: string, resourceType: string, format: string)
    requires Prop(data, "resource_type") == Str(resourceType) && Prop(data, "format") == Str(format)
    ensures MediaTypeField(file, data) == Str(BodyEncoder.MediaTypeOf(file, BodyEncoder.Uploaded(url, resourceType, format)))
  {
  }

  // ---------------------------------------------------------------------------
  // handleCreate
  // ---------------------------------------------------------------------------

  /** The body posted to the create route. */
  function CreateRequest(title: string, content: string, mediaUrl: Value, mediaType: Value): (v: Value)
    ensures Prop(v, "title") == Str(title) && Prop(v, "content") == Str(content)
    ensures Prop(v, "mediaUrl") == mediaUrl && Prop(v, "mediaType") == mediaType
  {
    var withTitle := With(Obj([]), "title", Str(title));
    var withContent := With(withTitle, "content", Str(content));
    var withUrl := With(withContent, "mediaUrl", mediaUrl);
    With(withUrl, "mediaType", mediaType)
  }

  /** How `handleCreate` ends on the client side, up to the create request. */
  datatype CreateOutcome =
    | Refused(message: string)
    | UploadFailed(message: string)
    | Sent(request: Value)

  /** `handleCreate` up to the create request: refused locally when there is
    * nothing to post; without a file, posted at once with null media;
    * with a file, uploaded under the retry policy and posted with the
    * upload's url and derived type, unless no response came, its body did
    * not parse, it was not ok, or its body was `null`. */
  method HandleCreate(title: string, content: string, file: Option<MediaFile>, fetch: Fetch, serialize: Value -> string)
    returns (o: CreateOutcome, timeouts: seq<int>)
    ensures NothingToPost(title, content, file) <==> o.Refused?
    ensures o.Refused? ==> o.message == NothingToPostMessage && timeouts == []
    ensures file.None? ==> timeouts == []
    ensures file.None? && !NothingToPost(title, content, file) ==>
      o == Sent(CreateRequest(title, content, Null, Null))
    ensures file.Some? ==>
      var r := RetryPolicy(fetch);
      && |timeouts| == r.attempts
      && (r.res.None? ==> o == UploadFailed(NoResponseMessage(r.lastErr)))
      && (r.res.Some? && r.res.value.data.Failure? ==> o == UploadFailed(r.res.value.data.error))
      && (r.res.Some? && r.res.value.data.Success? && !Ok(r.res.value.status) ==>
            var data := r.res.value.data.value;
            o == UploadFailed(StatusMessage(r.res.value.status, data, serialize(data))))
      && (r.res.Some? && r.res.value.data.Success? && Ok(r.res.value.status) && r.res.value.data.value.Null? ==>
            o == UploadFailed(NullBodyMessage))
      && (r.res.Some? && r.res.value.data.Success? && Ok(r.res.value.status) && !r.res.value.data.value.Null? ==>
            var data := r.res.value.data.value;
            o == Sent(CreateRequest(title, content, Prop(data, "secure_url"), MediaTypeField(file.value, data))))
  {
    timeouts := [];
    if NothingToPost(title, content, file) {
      return Refused(NothingToPostMessage), timeouts;
    }
    var mediaUrl := Null;
    var mediaType := Null;
    if file.Some? {
      var res, lastErr;
      res, lastErr, timeouts := UploadWithRetry(fetch);
      if res.None? {
        return UploadFailed(NoResponseMessage(lastErr)), timeouts;
      }
      if res.value.data.Failure? {
        return UploadFailed(res.value.data.error), timeouts;
      }
      var data := res.value.data.value;
      if !Ok(res.value.status) {
        return UploadFailed(StatusMessage(res.value.status, data, serialize(data))), timeouts;
      }
      if data.Null? {
        return UploadFailed(NullBodyMessage), timeouts;
      }
      mediaUrl := Prop(data, "secure_url");
      mediaType := MediaTypeField(file.value, data);
    }
    o := Sent(CreateRequest(title, content, mediaUrl, mediaType));
  }

  // ---------------------------------------------------------------------------
  // Showing a post's media
  // ---------------------------------------------------------------------------

  /** What the post list shows for a post's media. */
  datatype MediaView = NoMedia | VideoPlayer(src: Value) | ImageTag(src: Value)

  function Field(post: Store.Doc, k: string): Value {
    if k in post then post[k] else Undefined
  }

  /** `p.mediaType && p.mediaType.startsWith('video')`. */
  predicate IsVideoType(t: Value) {
    t.Str? && t.s != "" && StartsWith(t.s, "video")
  }

  /** A post with a media url shows a video player iff its media type starts
    * with `video`, and an image otherwise. */
  function RenderMedia(post: Store.Doc): (v: MediaView)
    ensures !Truthy(Field(post, "mediaUrl")) <==> v == NoMedia
    ensures v.VideoPlayer? <==> Truthy(Field(post, "mediaUrl")) && IsVideoType(Field(post, "mediaType"))
    ensures v != NoMedia ==> v.src == Field(post, "mediaUrl")
  {
    var url := Field(post, "mediaUrl");
    if !Truthy(url) then NoMedia
    else if IsVideoType(Field(post, "mediaType")) then VideoPlayer(url)
    else ImageTag(url)
  }

  /** A file the upload service stored as a video is shown as a video once
    * the create route has written the post. */
  lemma VideoUploadShowsAsVideo(title: string, content: string, file: MediaFile, data: Value)
    requires Truthy(Prop(data, "secure_url"))
    requires Prop(data, "resource_type") == Str("video")
    ensures RenderMedia(AdminCreate.StoredRecord(
              CreateRequest(title, content, Prop(data, "secure_url"), MediaTypeField(file, data)))).VideoPlayer?
  {
    var doc := AdminCreate.StoredRecord(CreateRequest(title, content, Prop(data, "secure_url"), MediaTypeField(file, data)));
    assert Field(doc, "mediaType") == Str("video/*");
    assert StartsWith("video/*", "video");
  }
}

=== FILE: admin_create.dfy ===
/** `app/api/admin/create/route.js`: admin SDK start-up and the create-post
    handler. */
module AdminCreate {
  import opened Wrappers
  import opened Json
  import opened Http
  import opened Store

  // ---------------------------------------------------------------------
  // initAdminSdk

  /** What the start-up code can find. An environment variable that is unset
      or empty is `None` or `Some("")`; the `...Loads` flags say whether
      reading, parsing and `initializeApp` with that source would succeed. */
  datatype SdkEnv = SdkEnv(
    alreadyInitialised: bool,
    serviceAccountKey: Option<string>,
    keyLoads: bool,
    serviceAccountPath: Option<string>,
    pathLoads: bool,
    fallbackExists: bool,
    fallbackLoads: bool)

  /** Where the SDK's credentials came from, if anywhere. */
  datatype SdkSource = AlreadyInitialised | FromKey | FromPath | FromFallback | Uninitialised

  predicate Set(v: Option<string>) {
    v.Some? && v.value != ""
  }

  predicate KeyWorks(env: SdkEnv) { Set(env.serviceAccountKey) && env.keyLoads }
  predicate PathWorks(env: SdkEnv) { Set(env.serviceAccountPath) && env.pathLoads }
  predicate FallbackWorks(env: SdkEnv) { env.fallbackExists && env.fallbackLoads }

  /** `initAdminSdk`: keeps an existing app, else tries the key variable, the
      path variable and the repository fallback file in that order; the
      first source that works wins and a failing one falls through. */
  function InitAdminSdk(env: SdkEnv): (src: SdkSource)
    ensures env.alreadyInitialised ==> src == AlreadyInitialised
    ensures src == FromKey <==> !env.alreadyInitialised && KeyWorks(env)
    ensures src == FromPath <==> !env.alreadyInitialised && !KeyWorks(env) && PathWorks(env)
    ensures src == FromFallback <==>
              !env.alreadyInitialised && !KeyWorks(env) && !PathWorks(env) && FallbackWorks(env)
    ensures src == Uninitialised <==>
              !env.alreadyInitialised && !KeyWorks(env) && !PathWorks(env) && !FallbackWorks(env)
  {
    if env.alreadyInitialised then AlreadyInitialised
    else if Set(env.serviceAccountKey) && env.keyLoads then FromKey
    else if Set(env.serviceAccountPath) && env.pathLoads then FromPath
    else if env.fallbackExists && env.fallbackLoads then FromFallback
    else Uninitialised
  }

  /** `admin.apps.length` after start-up: non-zero exactly when some source
      worked. */
  predicate SdkReady(env: SdkEnv) {
    InitAdminSdk(env) != Uninitialised
  }

  // ---------------------------------------------------------------------
  // POST

  /** The handler's answer and the store after it. */
  datatype Outcome = Outcome(response: Response, store: Store)

  const Unauthorized: string := "unauthorized"
  const Misconfigured: string := "server-misconfigured: admin SDK not initialized"

  /** The document written for a request body: exactly the four content
      fields and the creation time, every falsy value stored as null. */
  function StoredRecord(body: Value): (d: Doc)
    ensures d.Keys == {"title", "content", "mediaUrl", "mediaType", "createdAt"}
    ensures d["createdAt"] == ServerTimestamp
    ensures forall k :: k in d && k != "createdAt" ==>
              (Truthy(Prop(body, k)) ==> d[k] == Prop(body, k))
              && (!Truthy(Prop(body, k)) ==> d[k] == Null)
  {
    map["title" := OrNull(Prop(body, "title")),
        "content" := OrNull(Prop(body, "content")),
        "mediaUrl" := OrNull(Prop(body, "mediaUrl")),
        "mediaType" := OrNull(Prop(body, "mediaType")),
        "createdAt" := ServerTimestamp]
  }

  predicate Authorised(jar: Jar) {
    CookieValue(jar, "isAdmin") == Some("1")
  }

  /** `POST`: the `isAdmin` cookie is checked first, then the SDK; the body is
      read outside the `try`, so a malformed body escapes as an exception;
      the store assigns `newId`, and `fault` is a store failure's message. */
  function Post(req: Request, sdkReady: bool, store: Store, newId: string, fault: Option<string>): (r: Outcome)
    requires Str(newId) !in store.thoughts
    ensures r.response.Status() == 401 <==> !Authorised(req.cookies)
    ensures !Authorised(req.cookies) ==> r == Outcome(ErrorReply(401, Unauthorized), store)
    ensures Authorised(req.cookies) && !sdkReady ==> r == Outcome(ErrorReply(500, Misconfigured), store)
    ensures Authorised(req.cookies) && sdkReady ==> (r.response.Crash? <==> req.body.Failure? || !Destructurable(req.body.value))
    ensures r.response.Status() == 200 <==>
              Authorised(req.cookies) && sdkReady && req.body.Success? && Destructurable(req.body.value) && fault.None?
    ensures r.response.Status() == 200 ==>
              r.response.body == Obj([("id", Str(newId))])
              && r.store == Add(store, newId, StoredRecord(req.body.value))
    ensures r.response.Status() != 200 ==> r.store == store
    ensures Authorised(req.cookies) && sdkReady && req.body.Success? && Destructurable(req.body.value) && fault.Some? ==>
              r.response == ErrorReply(500, fault.value)
  {
    if !Authorised(req.cookies) then Outcome(ErrorReply(401, Unauthorized), store)
    else if !sdkReady then Outcome(ErrorReply(500, Misconfigured), store)
    else if req.body.Failure? || !Destructurable(req.body.value) then Outcome(Crash, store)
    else if fault.Some? then Outcome(ErrorReply(500, fault.value), store)
    else Outcome(Reply(200, Obj([("id", Str(newId))])), Add(store, newId, StoredRecord(req.body.value)))
  }

  /** An `additionalMedia` member in the body changes nothing: the handler
      never reads it, so the block editor's media list is dropped. */
  lemma IgnoresAdditionalMedia(cookies: Jar, body: Value, media: Value, sdkReady: bool, store: Store,
                               newId: string, fault: Option<string>)
    requires body.Obj? && Str(newId) !in store.thoughts
    ensures Post(Request(cookies, Success(With(body, "additionalMedia", media))), sdkReady, store, newId, fault)
         == Post(Request(cookies, Success(body)), sdkReady, store, newId, fault)
    ensures "additionalMedia" !in StoredRecord(With(body, "additionalMedia", media))
  {
    var b' := With(body, "additionalMedia", media);
    assert StoredRecord(b') == StoredRecord(body);
  }

  /** The handler after start-up: with no working credential source every
      authorised request is refused as misconfigured and the store is left
      alone; with any working source it behaves as with the SDK ready. */
  lemma PostAfterStartup(env: SdkEnv, req: Request, store: Store, newId: string, fault: Option<string>)
    requires Str(newId) !in store.thoughts
    ensures !env.alreadyInitialised && !KeyWorks(env) && !PathWorks(env) && !FallbackWorks(env)
            && Authorised(req.cookies) ==>
              Post(req, SdkReady(env), store, newId, fault) == Outcome(ErrorReply(500, Misconfigured), store)
    ensures env.alreadyInitialised || KeyWorks(env) || PathWorks(env) || FallbackWorks(env) ==>
              Post(req, SdkReady(env), store, newId, fault) == Post(req, true, store, newId, fault)
  {
  }
}

=== FILE: admin_delete.dfy ===
/** `app/api/admin/delete/route.js`: deleting a thought, with a best-effort
    clean-up of its media first. */
module AdminDelete {
  import opened Wrappers
  import opened Strings
  import opened Json
  import opened Http
  import opened Store
  import CloudinaryDelete

  /** The handler's answer, the store after it, the media URLs it asked
      the clean-up endpoint to delete, and whether the inner `catch` logged
      a failed clean-up. */
  datatype Outcome = Outcome(response: Response, store: Store, cleanupUrls: seq<string>, warned: bool)

  /** The local `publicId`: the last `/`-segment up to its first `.`. The
      handler computes it and never uses it. */
  function LocalPublicId(url: string): (id: string)
    ensures '.' !in id && '/' !in id
    ensures var parts := Split(url, '/');
            var name := parts[|parts| - 1];
            StartsWith(name, id) && (|id| == |name| || name[|id|] == '.')
  {
    var parts := Split(url, '/');
    var name := parts[|parts| - 1];
    var id := Split(name, '.')[0];
    assert '.' in name ==> name[..FirstIndex(name, '.')] == id;
    id
  }

  /** For a dotted file name the local id stops at the first `.`, while the
      clean-up endpoint's id stops at the last one. */
  lemma LocalIdDiffersFromPublicId(dir: string, a: string, b: string, ext: string)
    requires '/' !in a && '/' !in b && '/' !in ext
    requires '.' !in a && '.' !in ext
    ensures LocalPublicId(dir + "/" + a + "." + b + "." + ext) == a
    ensures CloudinaryDelete.StripExtension(a + "." + b + "." + ext) == a + "." + b
    ensures a + "." + b != a
  {
    var rest := b + "." + ext;
    var name := a + "." + rest;
    assert dir + "/" + a + "." + b + "." + ext == dir + "/" + name;
    LocalIdOfName(dir, a, rest);
    StripOfDotted(a, b, ext);
  }

  /** The local id of `dir/a.rest` is `a` when `a` has no `.`. */
  lemma LocalIdOfName(dir: string, a: string, rest: string)
    requires '/' !in a && '/' !in rest && '.' !in a
    ensures LocalPublicId(dir + "/" + (a + "." + rest)) == a
  {
    var name := a + "." + rest;
    NoSlashInName(a, rest);
    LastSegment(dir, name);
    FirstDotSegment(a, rest);
    var parts := Split(dir + "/" + name, '/');
    assert parts[|parts| - 1] == name;
    assert Split(name, '.')[0] == a;
  }

  lemma NoSlashInName(a: string, rest: string)
    requires '/' !in a && '/' !in rest
    ensures '/' !in a + "." + rest
  {
    var name := a + "." + rest;
    forall i | 0 <= i < |name| ensures name[i] != '/' {
      if i < |a| {
        assert name[i] == a[i];
      } else if i > |a| {
        assert name[i] == rest[i - |a| - 1];
      }
    }
  }

  lemma StripOfDotted(a: string, b: string, ext: string)
    requires '.' !in ext && '/' !in ext
    ensures CloudinaryDelete.StripExtension(a + "." + b + "." + ext) == a + "." + b
  {
    CloudinaryDelete.StripLastSuffix(a + "." + b, ext);
  }

  lemma LastSegment(dir: string, name: string)
    requires '/' !in name
    ensures var parts := Split(dir + "/" + name, '/'); parts[|parts| - 1] == name
  {
    assert dir + "/" + name == dir + ['/'] + name;
    SplitAppend(dir, name, '/');
  }

  lemma FirstDotSegment(a: string, rest: string)
    requires '.' !in a
    ensures Split(a + "." + rest, '.')[0] == a
  {
    assert a + "." + rest == a + ['.'] + rest;
    SplitAppend(a, rest, '.');
  }

  predicate Authorised(jar: Jar) {
    CookieValue(jar, "isAdmin") == Some("1")
  }

  const Misconfigured: string := "server-misconfigured: admin SDK not initialized"

  /** The clean-up request: sent for a truthy `mediaUrl`; a non-string one
      makes `split` throw inside the inner `try`, so nothing is sent. */
  function Cleanup(mediaUrl: Value): (urls: seq<string>)
    ensures |urls| <= 1
    ensures |urls| == 1 <==> Truthy(mediaUrl) && mediaUrl.Str?
    ensures |urls| == 1 ==> urls[0] == mediaUrl.s
  {
    if Truthy(mediaUrl) && mediaUrl.Str? then [mediaUrl.s] else []
  }

  /** The handler reaches the clean-up step: authorised, the SDK ready, the
      body destructured and the id truthy. */
  predicate ReachesCleanup(req: Request, sdkReady: bool) {
    && Authorised(req.cookies) && sdkReady && req.body.Success? && Destructurable(req.body.value)
    && Truthy(Prop(req.body.value, "id"))
  }

  /** `POST`: `cleanupFails` says whether the clean-up call throws; the inner
      `catch` only logs it. A truthy id that is not a document id reaches
      the clean-up and then makes `doc` throw into the outer `catch`.
      `fault` is a store failure's message. */
  function Post(req: Request, sdkReady: bool, store: Store, cleanupFails: bool, fault: Option<string>): (r: Outcome)
    ensures r.response.Status() == 401 <==> !Authorised(req.cookies)
    ensures !Authorised(req.cookies) ==> r == Outcome(ErrorReply(401, "unauthorized"), store, [], false)
    ensures Authorised(req.cookies) && !sdkReady ==> r == Outcome(ErrorReply(500, Misconfigured), store, [], false)
    ensures Authorised(req.cookies) && sdkReady && req.body.Success? && Destructurable(req.body.value)
            && !Truthy(Prop(req.body.value, "id")) ==>
              r == Outcome(ErrorReply(400, "missing id"), store, [], false)
    ensures r.cleanupUrls != [] ==>
              && req.body.Success? && r.cleanupUrls == Cleanup(Prop(req.body.value, "mediaUrl"))
              && Truthy(Prop(req.body.value, "id"))
    ensures r.response.Status() == 200 <==>
              && Authorised(req.cookies) && sdkReady && req.body.Success? && Destructurable(req.body.value)
              && DocumentId(Prop(req.body.value, "id")) && fault.None?
    ensures ReachesCleanup(req, sdkReady) && !DocumentId(Prop(req.body.value, "id")) ==>
              r.response == ErrorReply(500, InvalidPath) && r.store == store
    ensures r.response.Status() == 200 ==>
              && r.response == SuccessReply
              && r.store == DeleteThought(store, Prop(req.body.value, "id"))
              && r.cleanupUrls == Cleanup(Prop(req.body.value, "mediaUrl"))
    ensures Authorised(req.cookies) && sdkReady && req.body.Failure? ==>
              r == Outcome(ErrorReply(500, req.body.error), store, [], false)
    ensures Authorised(req.cookies) && sdkReady && req.body.Success? && !Destructurable(req.body.value) ==>
              r == Outcome(ErrorReply(500, DestructureError), store, [], false)
    ensures ReachesCleanup(req, sdkReady) && DocumentId(Prop(req.body.value, "id")) && fault.Some? ==>
              r.response == ErrorReply(500, fault.value) && r.store == store
    ensures ReachesCleanup(req, sdkReady) ==> r.cleanupUrls == Cleanup(Prop(req.body.value, "mediaUrl"))
    ensures !ReachesCleanup(req, sdkReady) ==> r.cleanupUrls == []
    ensures r.response.Status() != 200 ==> r.store == store
    ensures r.warned <==>
              var m := if req.body.Success? then Prop(req.body.value, "mediaUrl") else Undefined;
              ReachesCleanup(req, sdkReady) && Truthy(m) && (!m.Str? || cleanupFails)
    ensures r.response.Reply?
  {
    if !Authorised(req.cookies) then Outcome(ErrorReply(401, "unauthorized"), store, [], false)
    else if !sdkReady then Outcome(ErrorReply(500, Misconfigured), store, [], false)
    else if req.body.Failure? then Outcome(ErrorReply(500, req.body.error), store, [], false)
    else if !Destructurable(req.body.value) then Outcome(ErrorReply(500, DestructureError), store, [], false)
    else
      var body := req.body.value;
      var id := Prop(body, "id");
      if !Truthy(id) then Outcome(ErrorReply(400, "missing id"), store, [], false)
      else
        var mediaUrl := Prop(body, "mediaUrl");
        var cleanup := Cleanup(mediaUrl);
        // A non-string url makes `split` throw; either failure is only logged.
        var warned := Truthy(mediaUrl) && (!mediaUrl.Str? || cleanupFails);
        // `doc(id)` throws for anything but a document id.
        if !DocumentId(id) then Outcome(ErrorReply(500, InvalidPath), store, cleanup, warned)
        else if fault.Some? then Outcome(ErrorReply(500, fault.value), store, cleanup, warned)
        else Outcome(SuccessReply, DeleteThought(store, id), cleanup, warned)
  }

  /** A failing media clean-up is only logged: the response, the store and
      the clean-up request are those of a clean-up that succeeds. */
  lemma CleanupFailureIsNonFatal(req: Request, sdkReady: bool, store: Store, fault: Option<string>)
    ensures var failed := Post(req, sdkReady, store, true, fault);
            var succeeded := Post(req, sdkReady, store, false, fault);
            && failed.response == succeeded.response
            && failed.store == succeeded.store
            && failed.cleanupUrls == succeeded.cleanupUrls
            && (failed.cleanupUrls != [] ==> failed.warned && !succeeded.warned)
  {
  }
}

=== FILE: admin_update.dfy ===
/** `app/api/admin/update/route.js`: partial update of a thought. */
module AdminUpdate {
  import opened Wrappers
  import opened Json
  import opened Http
  import opened Store

  datatype Outcome = Outcome(response: Response, store: Store)

  /** The body members the handler copies into the update when present. */
  const Optional: set<string> := {"title", "content", "additionalMedia"}

  /** `updateData`: the update time, plus each optional member that is not
      `undefined` (so `null` and `""` are written). */
  function UpdateData(body: Value, nowMs: int): (d: Doc)
    ensures "updatedAt" in d && d["updatedAt"] == Date(nowMs)
    ensures forall k :: k in Optional ==> (k in d <==> Prop(body, k) != Undefined)
    ensures forall k :: k in Optional && k in d ==> d[k] == Prop(body, k)
    ensures d.Keys <= Optional + {"updatedAt"}
  {
    var d0 := map["updatedAt" := Date(nowMs)];
    var d1 := if Prop(body, "title") != Undefined then d0["title" := Prop(body, "title")] else d0;
    var d2 := if Prop(body, "content") != Undefined then d1["content" := Prop(body, "content")] else d1;
    if Prop(body, "additionalMedia") != Undefined then d2["additionalMedia" := Prop(body, "additionalMedia")] else d2
  }

  predicate Authorised(jar: Jar) {
    CookieValue(jar, "admin-authenticated") == Some("true")
  }

  /** `POST`: `nowMs` is `new Date()` and `fault` a store failure's message.
      Only the named thought's named fields change. */
  function Post(req: Request, store: Store, nowMs: int, fault: Option<string>): (r: Outcome)
    ensures r.response.Status() == 401 <==> !Authorised(req.cookies)
    ensures !Authorised(req.cookies) ==> r == Outcome(ErrorReply(401, "unauthorized"), store)
    ensures Authorised(req.cookies) && req.body.Success? && Destructurable(req.body.value)
            && !Truthy(Prop(req.body.value, "id")) ==>
              r == Outcome(ErrorReply(400, "missing id"), store)
    ensures r.response.Status() == 200 <==>
              && Authorised(req.cookies) && req.body.Success? && Destructurable(req.body.value)
              && DocumentId(Prop(req.body.value, "id")) && Prop(req.body.value, "id") in store.thoughts
              && fault.None?
    ensures Authorised(req.cookies) && req.body.Success? && Destructurable(req.body.value)
            && Truthy(Prop(req.body.value, "id")) && !DocumentId(Prop(req.body.value, "id")) ==>
              r == Outcome(ErrorReply(500, InvalidPath), store)
    ensures r.response.Status() == 200 ==>
              var id := Prop(req.body.value, "id");
              var data := UpdateData(req.body.value, nowMs);
              && r.response == SuccessReply
              && r.store.comments == store.comments
              && r.store.thoughts.Keys == store.thoughts.Keys
              && (forall k :: k in store.thoughts && k != id ==> r.store.thoughts[k] == store.thoughts[k])
              && r.store.thoughts[id].Keys == store.thoughts[id].Keys + data.Keys
              && (forall f :: f in data ==> r.store.thoughts[id][f] == data[f])
              && (forall f :: f in store.thoughts[id] && f !in data ==>
                    r.store.thoughts[id][f] == store.thoughts[id][f])
    ensures Authorised(req.cookies) && req.body.Failure? ==>
              r == Outcome(ErrorReply(500, req.body.error), store)
    ensures Authorised(req.cookies) && req.body.Success? && !Destructurable(req.body.value) ==>
              r == Outcome(ErrorReply(500, DestructureError), store)
    ensures Authorised(req.cookies) && req.body.Success? && Destructurable(req.body.value)
            && DocumentId(Prop(req.body.value, "id")) && fault.Some? ==>
              r == Outcome(ErrorReply(500, fault.value), store)
    ensures Authorised(req.cookies) && req.body.Success? && Destructurable(req.body.value)
            && DocumentId(Prop(req.body.value, "id")) && Prop(req.body.value, "id") !in store.thoughts
            && fault.None? ==>
              r == Outcome(ErrorReply(500, NotFound), store)
    ensures r.response.Status() != 200 ==> r.store == store
    ensures r.response.Reply?
  {
    if !Authorised(req.cookies) then Outcome(ErrorReply(401, "unauthorized"), store)
    else if req.body.Failure? then Outcome(ErrorReply(500, req.body.error), store)
    else if !Destructurable(req.body.value) then Outcome(ErrorReply(500, DestructureError), store)
    else
      var body := req.body.value;
      var id := Prop(body, "id");
      if !Truthy(id) then Outcome(ErrorReply(400, "missing id"), store)
      // `doc(id)` throws for anything but a document id.
      else if !DocumentId(id) then Outcome(ErrorReply(500, InvalidPath), store)
      else if fault.Some? then Outcome(ErrorReply(500, fault.value), store)
      else match Update(store, id, UpdateData(body, nowMs))
        case Failure(m) => Outcome(ErrorReply(500, m), store)
        case Success(s') => Outcome(SuccessReply, s')
  }
}

=== FILE: auth_routes.dfy ===
/** The four cookie routes: `app/api/auth/login/route.js` (sets `isAdmin`),
    `app/api/admin/login/route.js` (sets `admin-authenticated`),
    `app/api/auth/logout/route.js` and `app/api/auth/check/route.js`. */
module AuthRoutes {
  import opened Wrappers
  import opened Json
  import opened Http

  /** A handler's answer together with the cookie instructions it carries. */
  datatype Answer = Answer(response: Response, cookies: seq<CookieOp>)

  const IsAdminOptions: CookieOptions := CookieOptions(true, false, None, None, "/")

  /** One week, in seconds. */
  const SessionMaxAge: int := 60 * 60 * 24 * 7

  /** `POST /api/auth/login`: `adminPassword` is `ADMIN_PASSWORD` (`None` when
      unset). The body is read outside any `try`. */
  function AuthLogin(body: Result<Value, string>, adminPassword: Option<string>): (r: Answer)
    ensures body.Failure? || !Destructurable(body.value) ==> r == Answer(Crash, [])
    ensures body.Success? && Destructurable(body.value) && (adminPassword.None? || adminPassword.value == "") ==>
              r == Answer(Reply(500, Obj([("message", Str("Server not configured"))])), [])
    ensures r.cookies != [] <==>
              body.Success? && Destructurable(body.value) && adminPassword.Some? && adminPassword.value != ""
              && Prop(body.value, "password") == Str(adminPassword.value)
    ensures r.cookies != [] ==>
              r.cookies == [SetCookie("isAdmin", "1", IsAdminOptions)]
              && r.response == Reply(200, Obj([("ok", Bool(true))]))
    ensures body.Success? && Destructurable(body.value) && adminPassword.Some? && adminPassword.value != ""
            && Prop(body.value, "password") != Str(adminPassword.value) ==>
              r == Answer(Reply(401, Obj([("message", Str("Invalid"))])), [])
  {
    if body.Failure? || !Destructurable(body.value) then Answer(Crash, [])
    else if adminPassword.None? || adminPassword.value == "" then
      Answer(Reply(500, Obj([("message", Str("Server not configured"))])), [])
    else if Prop(body.value, "password") == Str(adminPassword.value) then
      Answer(Reply(200, Obj([("ok", Bool(true))])), [SetCookie("isAdmin", "1", IsAdminOptions)])
    else Answer(Reply(401, Obj([("message", Str("Invalid"))])), [])
  }

  /** The strict comparison `password === process.env.ADMIN_PASSWORD`, where
      an unset variable reads as `undefined`. */
  predicate PasswordMatches(password: Value, adminPassword: Option<string>) {
    match adminPassword
    case None => password == Undefined
    case Some(p) => password == Str(p)
  }

  /** The options of the `admin-authenticated` cookie. */
  function SessionOptions(nodeEnv: string): (o: CookieOptions)
    ensures o.secure <==> nodeEnv == "production"
    ensures o.httpOnly && o.sameSite == Some("strict") && o.maxAge == Some(604800) && o.path == "/"
  {
    CookieOptions(true, nodeEnv == "production", Some("strict"), Some(SessionMaxAge), "/")
  }

  /** `POST /api/admin/login`: no check that the secret is set, and a body
      that fails to parse is caught and answered with 500. */
  function AdminLogin(body: Result<Value, string>, adminPassword: Option<string>, nodeEnv: string): (r: Answer)
    ensures body.Failure? || !Destructurable(body.value) ==>
              r == Answer(ErrorReply(500, "Login failed"), [])
    ensures r.cookies != [] <==>
              body.Success? && Destructurable(body.value) && PasswordMatches(Prop(body.value, "password"), adminPassword)
    ensures r.cookies != [] ==>
              r.cookies == [SetCookie("admin-authenticated", "true", SessionOptions(nodeEnv))]
              && r.response == SuccessReply
    ensures body.Success? && Destructurable(body.value) && !PasswordMatches(Prop(body.value, "password"), adminPassword) ==>
              r == Answer(ErrorReply(401, "Invalid password"), [])
  {
    if body.Failure? || !Destructurable(body.value) then Answer(ErrorReply(500, "Login failed"), [])
    else if PasswordMatches(Prop(body.value, "password"), adminPassword) then
      Answer(SuccessReply, [SetCookie("admin-authenticated", "true", SessionOptions(nodeEnv))])
    else Answer(ErrorReply(401, "Invalid password"), [])
  }

  /** With `ADMIN_PASSWORD` unset, a body without `password` logs in. */
  lemma AdminLoginWithoutSecret(nodeEnv: string)
    ensures AdminLogin(Success(Obj([])), None, nodeEnv).response == SuccessReply
    ensures AdminLogin(Success(Obj([])), None, nodeEnv).cookies != []
  {
  }

  /** `POST /api/auth/logout`: no check at all; always ok, and removes only
      the `admin-authenticated` cookie. */
  function Logout(): (r: Answer)
    ensures r.response.Status() == 200
    ensures forall jar: Jar :: ApplyCookies(jar, r.cookies) == jar - {"admin-authenticated"}
  {
    Answer(Reply(200, Obj([("ok", Bool(true))])), [DeleteCookie("admin-authenticated", "/")])
  }

  /** `GET /api/auth/check`: reports whether `admin-authenticated` is
      exactly `"true"`. It sets no cookie, so it cannot change the jar. */
  function Check(jar: Jar): (isAdmin: bool)
    ensures isAdmin <==> "admin-authenticated" in jar && jar["admin-authenticated"] == "true"
  {
    CookieValue(jar, "admin-authenticated") == Some("true")
  }

  /** `check` reports the session that `/api/admin/login` opens and logout
      closes; a refused login leaves what it reports as it was. */
  lemma CheckFollowsLoginAndLogout(jar: Jar, body: Result<Value, string>, adminPassword: Option<string>,
                                   nodeEnv: string)
    ensures var ops := AdminLogin(body, adminPassword, nodeEnv).cookies;
            && (ops != [] ==> Check(ApplyCookies(jar, ops)))
            && (ops == [] ==> Check(ApplyCookies(jar, ops)) == Check(jar))
    ensures !Check(ApplyCookies(jar, Logout().cookies))
  {
    var ops := AdminLogin(body, adminPassword, nodeEnv).cookies;
    if ops != [] {
      ApplyOneCookie(jar, ops[0]);
    }
  }
}

=== FILE: blocks.dfy ===
/** The block editor's list of content blocks and the operations the editor
  * offers on it: add, update one field, delete, move, drag-resize and the
  * file picker of image and video blocks. */
module Blocks {
  import opened Wrappers
  import opened Seqs

  /** The `type` of a block; any string outside `BLOCK_TYPES` is `Other`. */
  datatype Kind = Text | Image | Video | Audio | Quote | Divider | Other(name: string)

  /** A file chosen in the browser: its name and reported MIME type
    * (`file.type`, empty when the browser does not know it). */
  datatype MediaFile = MediaFile(name: string, mimeType: string)

  /** One block. `widthPercent` is `None` until the picker or the slider sets
    * it; `file` is `None` for `null`. Ids come from `Date.now()` and are not
    * assumed unique. */
  datatype Block = Block(
    id: int,
    kind: Kind,
    content: string,
    file: Option<MediaFile>,
    alignment: string,
    size: string,
    widthPercent: Option<int>)

  /** The block `addBlock(type)` creates. */
  function NewBlock(id: int, kind: Kind): Block {
    Block(id, kind, "", None, "left", "medium", None)
  }

  /** `addBlock`: one fresh block at the end, the earlier ones unchanged. */
  function AddBlock(blocks: seq<Block>, id: int, kind: Kind): (r: seq<Block>)
    ensures |r| == |blocks| + 1
    ensures r[..|blocks|] == blocks
    ensures r[|blocks|].id == id && r[|blocks|].kind == kind
    ensures r[|blocks|].content == "" && r[|blocks|].file == None
    ensures r[|blocks|].alignment == "left" && r[|blocks|].size == "medium"
    ensures r[|blocks|].widthPercent == None
  {
    blocks + [NewBlock(id, kind)]
  }

  // ---------------------------------------------------------------------------
  // updateBlock(id, field, value)
  // ---------------------------------------------------------------------------

  /** The fields of a block, named so that "every other field" can be said. */
  datatype Field = IdField | KindField | ContentField | FileField
                 | AlignmentField | SizeField | WidthField

  /** A field's value, in one value space. */
  datatype FieldValue =
    | IntValue(n: int)
    | KindValue(k: Kind)
    | StringValue(s: string)
    | FileValue(f: Option<MediaFile>)
    | WidthValue(w: Option<int>)

  function Get(b: Block, f: Field): FieldValue {
    match f
    case IdField => IntValue(b.id)
    case KindField => KindValue(b.kind)
    case ContentField => StringValue(b.content)
    case FileField => FileValue(b.file)
    case AlignmentField => StringValue(b.alignment)
    case SizeField => StringValue(b.size)
    case WidthField => WidthValue(b.widthPercent)
  }

  /** Two blocks that agree on every field are the same block. */
  lemma SameFieldsSameBlock(a: Block, b: Block)
    requires forall f: Field :: Get(a, f) == Get(b, f)
    ensures a == b
  {
    assert Get(a, IdField) == Get(b, IdField);
    assert Get(a, KindField) == Get(b, KindField);
    assert Get(a, ContentField) == Get(b, ContentField);
    assert Get(a, FileField) == Get(b, FileField);
    assert Get(a, AlignmentField) == Get(b, AlignmentField);
    assert Get(a, SizeField) == Get(b, SizeField);
    assert Get(a, WidthField) == Get(b, WidthField);
  }

  /** The `(field, value)` pairs the editor passes to `onUpdate`: the text
    * areas set `content`, the picker `file`, the alignment buttons
    * `alignment`, the slider, the picker and the resize handle `widthPercent`. */
  datatype FieldUpdate =
    | SetContent(content: string)
    | SetFile(file: Option<MediaFile>)
    | SetAlignment(alignment: string)
    | SetWidth(width: int)
  {
    function Target(): Field {
      match this
      case SetContent(_) => ContentField
      case SetFile(_) => FileField
      case SetAlignment(_) => AlignmentField
      case SetWidth(_) => WidthField
    }

    function Value(): FieldValue {
      match this
      case SetContent(c) => StringValue(c)
      case SetFile(f) => FileValue(f)
      case SetAlignment(a) => StringValue(a)
      case SetWidth(w) => WidthValue(Some(w))
    }
  }

  /** `{ ...block, [field]: value }`. */
  function Apply(b: Block, u: FieldUpdate): (r: Block)
    ensures Get(r, u.Target()) == u.Value()
    ensures forall f: Field :: f != u.Target() ==> Get(r, f) == Get(b, f)
  {
    match u
    case SetContent(c) => b.(content := c)
    case SetFile(file) => b.(file := file)
    case SetAlignment(a) => b.(alignment := a)
    case SetWidth(w) => b.(widthPercent := Some(w))
  }

  /** `updateBlock`: every block with the id gets the field set, and nothing
    * else changes — not the length, not the order, not any other block, not
    * any other field. */
  function UpdateBlock(blocks: seq<Block>, id: int, u: FieldUpdate): (r: seq<Block>)
    ensures |r| == |blocks|
    ensures forall i :: 0 <= i < |r| && blocks[i].id != id ==> r[i] == blocks[i]
    ensures forall i :: 0 <= i < |r| && blocks[i].id == id ==>
      Get(r[i], u.Target()) == u.Value()
      && forall f: Field :: f != u.Target() ==> Get(r[i], f) == Get(blocks[i], f)
  {
    seq(|blocks|, i requires 0 <= i < |blocks| =>
      if blocks[i].id == id then Apply(blocks[i], u) else blocks[i])
  }

  /** Setting the same value twice is setting it once. */
  lemma UpdateBlockIdempotent(blocks: seq<Block>, id: int, u: FieldUpdate)
    ensures UpdateBlock(UpdateBlock(blocks, id, u), id, u) == UpdateBlock(blocks, id, u)
  {
    var once := UpdateBlock(blocks, id, u);
    var twice := UpdateBlock(once, id, u);
    forall i | 0 <= i < |blocks|
      ensures twice[i] == once[i]
    {
      if blocks[i].id == id {
        assert Get(once[i], IdField) == Get(blocks[i], IdField);
        SameFieldsSameBlock(twice[i], once[i]);
      }
    }
  }

  /** An id no block carries makes `updateBlock` a no-op. */
  lemma UpdateAbsentId(blocks: seq<Block>, id: int, u: FieldUpdate)
    requires forall i :: 0 <= i < |blocks| ==> blocks[i].id != id
    ensures UpdateBlock(blocks, id, u) == blocks
  {
  }

  // ---------------------------------------------------------------------------
  // deleteBlock(id) and moveBlock(index, direction)
  // ---------------------------------------------------------------------------

  /** `deleteBlock`: the blocks without that id, in their original order. */
  function DeleteBlock(blocks: seq<Block>, id: int): (r: seq<Block>)
    ensures forall i :: 0 <= i < |r| ==> r[i].id != id
    ensures forall i :: 0 <= i < |blocks| && blocks[i].id != id ==> blocks[i] in r
    ensures forall i :: 0 <= i < |r| ==> r[i] in blocks
    ensures IsSubsequence(r, blocks)
    ensures forall b: Block :: multiset(r)[b] == if b.id != id then multiset(blocks)[b] else 0
  {
    var keep := (b: Block) => b.id != id;
    assert forall b: Block :: multiset(Filter(blocks, keep))[b] == if b.id != id then multiset(blocks)[b] else 0 by {
      forall b: Block {
        FilterMultiset(blocks, keep, b);
      }
    }
    Filter(blocks, keep)
  }

  /** Deleting an id that no block carries changes nothing. */
  lemma DeleteAbsentId(blocks: seq<Block>, id: int)
    requires forall i :: 0 <= i < |blocks| ==> blocks[i].id != id
    ensures DeleteBlock(blocks, id) == blocks
  {
    FilterAll(blocks, (b: Block) => b.id != id);
  }

  /** Adding a block under a fresh id and deleting that id restores the list. */
  lemma AddThenDelete(blocks: seq<Block>, id: int, kind: Kind)
    requires forall i :: 0 <= i < |blocks| ==> blocks[i].id != id
    ensures DeleteBlock(AddBlock(blocks, id, kind), id) == blocks
  {
    var keep := (b: Block) => b.id != id;
    FilterAppend(blocks, [NewBlock(id, kind)], keep);
    FilterAll(blocks, keep);
    assert Filter([NewBlock(id, kind)], keep) == [];
  }

  /** The index `moveBlock` swaps with: one up for `'up'`, one down for any
    * other direction string. */
  function Neighbour(index: int, direction: string): int {
    if direction == "up" then index - 1 else index + 1
  }

  /** `moveBlock`: swap with the neighbour when it exists, otherwise leave the
    * list alone. The editor only offers indices of existing blocks. */
  function MoveBlock(blocks: seq<Block>, index: int, direction: string): (r: seq<Block>)
    requires 0 <= index < |blocks|
    ensures |r| == |blocks|
    ensures multiset(r) == multiset(blocks)
    ensures var n := Neighbour(index, direction);
      if 0 <= n < |blocks| then
        r[index] == blocks[n] && r[n] == blocks[index]
        && forall k :: 0 <= k < |r| && k != index && k != n ==> r[k] == blocks[k]
      else
        r == blocks
  {
    var n := Neighbour(index, direction);
    if n < 0 || n >= |blocks| then blocks
    else
      var r := blocks[index := blocks[n]][n := blocks[index]];
      SwapIsPermutation(blocks, index, n);
      r
  }

  lemma SwapIsPermutation(s: seq<Block>, i: int, j: int)
    requires 0 <= i < |s| && 0 <= j < |s|
    ensures multiset(s[i := s[j]][j := s[i]]) == multiset(s)
  {
    var t := s[i := s[j]];
    assert multiset(t) == multiset(s) - multiset{s[i]} + multiset{s[j]};
    assert multiset(t[j := s[i]]) == multiset(t) - multiset{t[j]} + multiset{s[i]};
  }

  /** Moving a block up and then back down restores the list. */
  lemma MoveUpThenDown(blocks: seq<Block>, index: int)
    requires 1 <= index < |blocks|
    ensures MoveBlock(MoveBlock(blocks, index, "up"), index - 1, "down") == blocks
  {
    var once := MoveBlock(blocks, index, "up");
    var twice := MoveBlock(once, index - 1, "down");
    assert forall k :: 0 <= k < |blocks| ==> twice[k] == blocks[k];
  }

  /** Moving a block down and then back up restores the list. */
  lemma MoveDownThenUp(blocks: seq<Block>, index: int)
    requires 0 <= index < |blocks| - 1
    ensures MoveBlock(MoveBlock(blocks, index, "down"), index + 1, "up") == blocks
  {
    var once := MoveBlock(blocks, index, "down");
    var twice := MoveBlock(once, index + 1, "up");
    assert forall k :: 0 <= k < |blocks| ==> twice[k] == blocks[k];
  }

  // ---------------------------------------------------------------------------
  // Width: the `|| 70` default, drag-resize and the file picker
  // ---------------------------------------------------------------------------

  /** `!block.widthPercent`: absent or zero. */
  predicate WidthUnset(w: Option<int>) {
    w.None? || w.value == 0
  }

  /** `block.widthPercent || 70`. */
  function WidthOr70(w: Option<int>): (r: int)
    ensures WidthUnset(w) <==> r == 70 && w != Some(70)
    ensures !WidthUnset(w) ==> r == w.value
  {
    if WidthUnset(w) then 70 else w.value
  }

  /** `Math.round`: the nearest integer, halves rounding up. */
  function Round(x: real): (n: int)
    ensures (n as real) - 0.5 <= x < (n as real) + 0.5
  {
    (x + 0.5).Floor
  }

  /** The width a drag stores: `Math.round(Math.max(20, Math.min(100,
    * startWidth + deltaPercent)))`. */
  function ResizedWidth(startWidth: int, deltaPercent: real): (w: int)
    ensures 20 <= w <= 100
    ensures var x := startWidth as real + deltaPercent;
      && (x <= 20.0 ==> w == 20)
      && (x >= 100.0 ==> w == 100)
      && (20.0 <= x <= 100.0 ==> (w as real) - 0.5 <= x < (w as real) + 0.5)
  {
    var x := startWidth as real + deltaPercent;
    var clamped := if x > 100.0 then 100.0 else if x < 20.0 then 20.0 else x;
    Round(clamped)
  }

  /** One mouse-move of a drag on block `b`: the block's width becomes the
    * clamped, rounded width measured from where the drag started. */
  function Resize(blocks: seq<Block>, b: Block, deltaPercent: real): (r: seq<Block>)
    ensures |r| == |blocks|
    ensures forall i :: 0 <= i < |r| && blocks[i].id == b.id ==>
      r[i].widthPercent.Some? && 20 <= r[i].widthPercent.value <= 100
    ensures forall i :: 0 <= i < |r| && blocks[i].id == b.id ==>
      r[i] == blocks[i].(widthPercent := Some(ResizedWidth(WidthOr70(b.widthPercent), deltaPercent)))
    ensures forall i :: 0 <= i < |r| && blocks[i].id != b.id ==> r[i] == blocks[i]
  {
    UpdateBlock(blocks, b.id, SetWidth(ResizedWidth(WidthOr70(b.widthPercent), deltaPercent)))
  }

  /** The updates the file input's `onChange` issues for block `b`: the file,
    * then the default width when none is set. */
  function PickFileUpdates(b: Block, file: Option<MediaFile>): seq<FieldUpdate> {
    [SetFile(file)] + if WidthUnset(b.widthPercent) then [SetWidth(70)] else []
  }

  /** As written: each `updateBlock` call maps over the same render's
    * `contentBlocks` and hands React a whole new list, so the last call's list
    * is the one that stays. */
  function PickFileAsWritten(blocks: seq<Block>, index: int, file: Option<MediaFile>): (r: seq<Block>)
    requires 0 <= index < |blocks|
    ensures |r| == |blocks|
    ensures forall i :: 0 <= i < |r| && blocks[i].id != blocks[index].id ==> r[i] == blocks[i]
  {
    var updates := PickFileUpdates(blocks[index], file);
    UpdateBlock(blocks, blocks[index].id, updates[|updates| - 1])
  }

  /** With no width set, the picked file is lost: only the width survives. */
  lemma PickFileAsWrittenLosesFile(blocks: seq<Block>, index: int, file: MediaFile)
    requires 0 <= index < |blocks|
    requires WidthUnset(blocks[index].widthPercent) && blocks[index].file == None
    ensures PickFileAsWritten(blocks, index, Some(file))[index].file == None
    ensures PickFileAsWritten(blocks, index, Some(file))[index].widthPercent == Some(70)
  {
    var r := PickFileAsWritten(blocks, index, Some(file));
    assert Get(r[index], FileField) == Get(blocks[index], FileField);
  }

  /** Every update applied in order, each to the list the previous one left. */
  function UpdateAll(blocks: seq<Block>, id: int, updates: seq<FieldUpdate>): (r: seq<Block>)
    ensures |r| == |blocks|
    ensures forall i :: 0 <= i < |r| ==> r[i].id == blocks[i].id
    ensures forall i :: 0 <= i < |r| && blocks[i].id != id ==> r[i] == blocks[i]
    decreases |updates|
  {
    if |updates| == 0 then blocks
    else UpdateAll(UpdateBlock(blocks, id, updates[0]), id, updates[1..])
  }

  /** The picker as intended (what a functional `setContentBlocks(prev => ...)`
    * gives): every block with the id holds the file and a width, the default
    * 70 when none was set, and every other block is untouched. */
  function PickFile(blocks: seq<Block>, index: int, file: Option<MediaFile>): (r: seq<Block>)
    requires 0 <= index < |blocks|
    ensures |r| == |blocks|
    ensures forall i :: 0 <= i < |r| && blocks[i].id == blocks[index].id ==>
      && r[i].file == file
      && (WidthUnset(blocks[index].widthPercent) ==> r[i].widthPercent == Some(70))
      && (!WidthUnset(blocks[index].widthPercent) ==> r[i].widthPercent == blocks[i].widthPercent)
      && r[i].content == blocks[i].content && r[i].alignment == blocks[i].alignment
    ensures forall i :: 0 <= i < |r| && blocks[i].id != blocks[index].id ==> r[i] == blocks[i]
  {
    var id := blocks[index].id;
    var updates := PickFileUpdates(blocks[index], file);
    var withFile := UpdateBlock(blocks, id, SetFile(file));
    if WidthUnset(blocks[index].widthPercent) then
      var withWidth := UpdateBlock(withFile, id, SetWidth(70));
      assert UpdateAll(blocks, id, updates) == withWidth by {
        assert updates[0] == SetFile(file) && updates[1..] == [SetWidth(70)];
        assert UpdateAll(blocks, id, updates) == UpdateAll(withFile, id, [SetWidth(70)]);
        assert [SetWidth(70)][1..] == [];
        assert UpdateAll(withFile, id, [SetWidth(70)]) == UpdateAll(withWidth, id, []);
      }
      PickFileFields(blocks, withFile, id, SetFile(file));
      PickFileFields(withFile, withWidth, id, SetWidth(70));
      UpdateAll(blocks, id, updates)
    else
      assert UpdateAll(blocks, id, updates) == withFile by {
        assert updates[0] == SetFile(file) && updates[1..] == [];
        assert UpdateAll(blocks, id, updates) == UpdateAll(withFile, id, []);
      }
      PickFileFields(blocks, withFile, id, SetFile(file));
      UpdateAll(blocks, id, updates)
  }

  /** Reads one `UpdateBlock` result field by field. */
  lemma PickFileFields(before: seq<Block>, after: seq<Block>, id: int, u: FieldUpdate)
    requires after == UpdateBlock(before, id, u)
    requires u.SetFile? || u.SetWidth?
    ensures forall i :: 0 <= i < |after| && before[i].id == id ==>
      && after[i].id == id
      && (u.SetFile? ==> after[i].file == u.file && after[i].widthPercent == before[i].widthPercent)
      && (u.SetWidth? ==> after[i].widthPercent == Some(u.width) && after[i].file == before[i].file)
      && after[i].content == before[i].content && after[i].alignment == before[i].alignment
  {
    forall i | 0 <= i < |after| && before[i].id == id
      ensures after[i].id == id
      ensures u.SetFile? ==> after[i].file == u.file && after[i].widthPercent == before[i].widthPercent
      ensures u.SetWidth? ==> after[i].widthPercent == Some(u.width) && after[i].file == before[i].file
      ensures after[i].content == before[i].content && after[i].alignment == before[i].alignment
    {
      assert Get(after[i], IdField) == Get(before[i], IdField);
      assert Get(after[i], ContentField) == Get(before[i], ContentField);
      assert Get(after[i], AlignmentField) == Get(before[i], AlignmentField);
      assert Get(after[i], FileField) == Get(before[i], FileField) || u.SetFile?;
      assert Get(after[i], WidthField) == Get(before[i], WidthField) || u.SetWidth?;
    }
  }

  /** When a width is already set the handler issues one update, and the
    * as-written picker agrees with the intended one. */
  lemma PickFileAsWrittenWithWidth(blocks: seq<Block>, index: int, file: Option<MediaFile>)
    requires 0 <= index < |blocks|
    requires !WidthUnset(blocks[index].widthPercent)
    ensures PickFileAsWritten(blocks, index, file) == PickFile(blocks, index, file)
  {
    var id := blocks[index].id;
    var updates := PickFileUpdates(blocks[index], file);
    assert updates == [SetFile(file)];
    assert UpdateAll(blocks, id, updates) == UpdateAll(UpdateBlock(blocks, id, SetFile(file)), id, []);
  }
}

=== FILE: cloudinary_delete.dfy ===
/** `app/api/cloudinary/delete/route.js`: deriving a media public id from its
    URL and building the signed destroy request. */
module CloudinaryDelete {
  import opened Wrappers
  import opened Strings
  import opened Json
  import opened Http

  /** Index of the first element of `xs` equal to `x` (`indexOf`). */
  function IndexOf(xs: seq<string>, x: string): (r: Option<nat>)
    ensures r.None? <==> x !in xs
    ensures r.Some? ==> r.value < |xs| && xs[r.value] == x && x !in xs[..r.value]
  {
    if |xs| == 0 then None
    else if xs[0] == x then Some(0)
    else
      var r := IndexOf(xs[1..], x);
      assert xs == [xs[0]] + xs[1..];
      if r.None? then None
      else
        assert xs[..r.value + 1] == [xs[0]] + xs[1..][..r.value];
        Some(r.value + 1)
  }

  /** `name.split('.').slice(0, -1).join('.')`: the file name without its
      last `.`-suffix, or the empty string when it has no `.`. */
  function StripExtension(name: string): (stem: string)
    ensures '.' !in name ==> stem == ""
    ensures '.' in name ==> |stem| < |name| && stem == name[..|stem|] && name[|stem|] == '.'
                            && '.' !in name[|stem| + 1..]
  {
    var parts := Split(name, '.');
    if '.' in name then JoinAllButLast(name, '.'); Join(DropLast(parts), '.')
    else Join(DropLast(parts), '.')
  }

  /** `extractPublicId` from the URL's path: the segments after the first
      `upload` segment (the last segment excluded from the search), then the
      last segment without its extension, joined by `/`. */
  function PublicIdOfPath(path: string): (id: string)
    ensures var parts := Split(path, '/');
            "upload" !in parts[..|parts| - 1] ==> id == StripExtension(parts[|parts| - 1])
  {
    var parts := Split(path, '/');
    var dirs := parts[..|parts| - 1];
    var stem := StripExtension(parts[|parts| - 1]);
    match IndexOf(dirs, "upload")
    case Some(i) => Join(dirs[i + 1..] + [stem], '/')
    case None => stem
  }

  lemma SplitAfterUpload(j: string)
    ensures Split("upload" + ['/'] + j, '/') == ["upload"] + Split(j, '/')
  {
    SplitAppend("upload", j, '/');
    assert Split("upload", '/') == ["upload"];
  }

  /** The segments of `prefix/upload/t1/.../tn`. */
  lemma SplitUploadPath(prefix: string, tail: seq<string>)
    requires |tail| >= 1
    requires forall i :: 0 <= i < |tail| ==> '/' !in tail[i]
    ensures Split(prefix + "/upload/" + Join(tail, '/'), '/') == Split(prefix, '/') + ["upload"] + tail
  {
    var j := Join(tail, '/');
    var rest := "upload" + ['/'] + j;
    assert "/upload/" == ['/'] + "upload" + ['/'];
    assert prefix + "/upload/" + j == prefix + ['/'] + rest;
    SplitAppend(prefix, rest, '/');
    SplitAfterUpload(j);
    SplitJoin(tail, '/');
    assert Split(prefix, '/') + (["upload"] + tail) == Split(prefix, '/') + ["upload"] + tail;
  }

  /** With a path `prefix/upload/f1/.../fn/file`, the id is `f1/.../fn/` and
      the file name without its extension; version segments such as `v123`
      are kept like any folder. */
  lemma {:induction false} PublicIdAfterUpload(prefix: string, folders: seq<string>, file: string)
    requires "upload" !in Split(prefix, '/')
    requires forall i :: 0 <= i < |folders| ==> '/' !in folders[i]
    requires '/' !in file
    ensures PublicIdOfPath(prefix + "/upload/" + Join(folders + [file], '/'))
         == Join(folders + [StripExtension(file)], '/')
  {
    var tail := folders + [file];
    assert forall i :: 0 <= i < |tail| ==> '/' !in tail[i];
    var path := prefix + "/upload/" + Join(tail, '/');
    SplitUploadPath(prefix, tail);
    var pre := Split(prefix, '/');
    var dirs := pre + ["upload"] + folders;
    assert Split(path, '/') == dirs + [file];
    UploadIndex(pre, folders);
    PublicIdOfSegments(path, dirs, file, |pre|);
    assert dirs[|pre| + 1..] == folders;
  }

  lemma UploadIndex(pre: seq<string>, folders: seq<string>)
    requires "upload" !in pre
    ensures IndexOf(pre + ["upload"] + folders, "upload") == Some(|pre|)
  {
    var dirs := pre + ["upload"] + folders;
    assert dirs[|pre|] == "upload" && dirs[..|pre|] == pre;
  }

  lemma PublicIdOfSegments(path: string, dirs: seq<string>, last: string, i: nat)
    requires Split(path, '/') == dirs + [last]
    requires IndexOf(dirs, "upload") == Some(i)
    ensures PublicIdOfPath(path) == Join(dirs[i + 1..] + [StripExtension(last)], '/')
  {
    var parts := Split(path, '/');
    assert parts[..|parts| - 1] == dirs;
  }

  /** Only the final `.`-suffix is removed: `a.b.jpg` keeps `a.b`. */
  lemma StripLastSuffix(base: string, ext: string)
    requires '.' !in ext
    ensures StripExtension(base + "." + ext) == base
  {
    var name := base + "." + ext;
    var stem := StripExtension(name);
    assert name[|base|] == '.';
    assert name[..|base|] == base;
  }

  /** Without an `upload` segment and without a `.`, the id is empty. */
  lemma BareNameExample()
    ensures PublicIdOfPath("/photo") == ""
  {
    assert "/photo" == "" + ['/'] + "photo";
    SplitAtFirst("", "photo", '/');
    assert Split("photo", '/') == ["photo"];
    assert Split("/photo", '/') == ["", "photo"];
    assert '.' !in "photo";
  }

  /** `extractPublicId`: `pathname` is what `new URL(url)` yields, `None`
      when it throws (the handler then returns null). */
  function ExtractPublicId(pathname: Option<string>): (id: Option<string>)
    ensures pathname.None? <==> id.None?
    ensures pathname.Some? ==> id == Some(PublicIdOfPath(pathname.value))
  {
    match pathname
    case None => None
    case Some(p) => Some(PublicIdOfPath(p))
  }

  // ---------------------------------------------------------------------
  // POST

  /** The three server settings; unset or empty means not configured. */
  datatype CdnEnv = CdnEnv(cloudName: string, apiKey: string, apiSecret: string)

  predicate Configured(env: CdnEnv) {
    env.cloudName != "" && env.apiKey != "" && env.apiSecret != ""
  }

  /** The destroy request sent to the media host: the account, the endpoint
      under it and the form; its reply is returned to the caller unchanged. */
  datatype DestroyCall = DestroyCall(cloudName: string, endpoint: string, form: seq<(string, string)>)

  /** The endpoint is fixed to the image resources, whatever the url was. */
  const DestroyEndpoint: string := "resources/image/destroy"

  datatype Outcome =
    | Respond(response: Response)
    | Destroy(call: DestroyCall)

  /** The string the handler signs. */
  function StringToSign(id: string, timestamp: nat, secret: string): (s: string)
    ensures StartsWith(s, "public_id=" + id + "&timestamp=")
    ensures |s| == |"public_id=" + id + "&timestamp="| + |NatToString(timestamp)| + |secret|
    ensures s[|"public_id=" + id + "&timestamp="|..|s| - |secret|] == NatToString(timestamp)
    ensures s[|s| - |secret|..] == secret
  {
    var head := "public_id=" + id + "&timestamp=";
    var digits := NatToString(timestamp);
    var s := head + digits + secret;
    assert s[..|head|] == head;
    assert s[|head|..|s| - |secret|] == digits;
    assert s[|s| - |secret|..] == secret;
    s
  }

  /** `POST`: `parseUrl` stands for `new URL(...).pathname` on the body's
      `url`, `nowMs` for `Date.now()` and `sha1` for the hex SHA-1 digest. */
  function Post(body: Result<Value, string>, parseUrl: Value -> Option<string>, env: CdnEnv,
                nowMs: nat, sha1: string -> string): (r: Outcome)
    ensures (body.Failure? || !Destructurable(body.value)) ==> r == Respond(Crash)
    ensures body.Success? && Destructurable(body.value) ==>
              var id := ExtractPublicId(parseUrl(Prop(body.value, "url")));
              && (id.None? || id.value == "" ==> r == Respond(Reply(400, Obj([("message", Str("Invalid url"))]))))
              && (id.Some? && id.value != "" && !Configured(env) ==>
                    r == Respond(Reply(500, Obj([("message", Str("Server not configured"))]))))
              && (r.Destroy? <==> id.Some? && id.value != "" && Configured(env))
              && (r.Destroy? ==>
                    var ts := nowMs / 1000;
                    && r.call.cloudName == env.cloudName
                    && r.call.endpoint == DestroyEndpoint
                    && r.call.form == [("public_id", id.value),
                                       ("timestamp", NatToString(ts)),
                                       ("api_key", env.apiKey),
                                       ("signature", sha1(StringToSign(id.value, ts, env.apiSecret)))])
  {
    if body.Failure? || !Destructurable(body.value) then Respond(Crash)
    else
      var id := ExtractPublicId(parseUrl(Prop(body.value, "url")));
      if id.None? || id.value == "" then Respond(Reply(400, Obj([("message", Str("Invalid url"))])))
      else if !Configured(env) then Respond(Reply(500, Obj([("message", Str("Server not configured"))])))
      else
        var ts := nowMs / 1000;
        var signature := sha1(StringToSign(id.value, ts, env.apiSecret));
        Destroy(DestroyCall(env.cloudName, DestroyEndpoint, [("public_id", id.value), ("timestamp", NatToString(ts)),
                                             ("api_key", env.apiKey), ("signature", signature)]))
  }
}

=== FILE: comment_delete.dfy ===
/** `app/api/admin/comments/delete/route.js`: deleting one comment. */
module CommentDelete {
  import opened Wrappers
  import opened Json
  import opened Http
  import opened Store

  datatype Outcome = Outcome(response: Response, store: Store)

  predicate Authorised(jar: Jar) {
    CookieValue(jar, "admin-authenticated") == Some("true")
  }

  /** `POST`: deletes `thoughts/{thoughtId}/comments/{commentId}` and nothing
      else; a truthy id that is not a document id makes `doc` throw into the
      `catch`; `fault` is a store failure's message. */
  function Post(req: Request, store: Store, fault: Option<string>): (r: Outcome)
    ensures r.response.Status() == 401 <==> !Authorised(req.cookies)
    ensures !Authorised(req.cookies) ==> r == Outcome(ErrorReply(401, "unauthorized"), store)
    ensures Authorised(req.cookies) && req.body.Success? && Destructurable(req.body.value)
            && (!Truthy(Prop(req.body.value, "thoughtId")) || !Truthy(Prop(req.body.value, "commentId"))) ==>
              r == Outcome(ErrorReply(400, "missing thoughtId or commentId"), store)
    ensures r.response.Status() == 200 <==>
              && Authorised(req.cookies) && req.body.Success? && Destructurable(req.body.value)
              && DocumentId(Prop(req.body.value, "thoughtId")) && DocumentId(Prop(req.body.value, "commentId"))
              && fault.None?
    ensures Authorised(req.cookies) && req.body.Success? && Destructurable(req.body.value)
            && Truthy(Prop(req.body.value, "thoughtId")) && Truthy(Prop(req.body.value, "commentId"))
            && !(DocumentId(Prop(req.body.value, "thoughtId")) && DocumentId(Prop(req.body.value, "commentId"))) ==>
              r == Outcome(ErrorReply(500, InvalidPath), store)
    ensures r.response.Status() == 200 ==>
              var key := (Prop(req.body.value, "thoughtId"), Prop(req.body.value, "commentId"));
              && r.response == SuccessReply
              && r.store.thoughts == store.thoughts
              && r.store.comments.Keys == store.comments.Keys - {key}
              && (forall k :: k in r.store.comments ==> r.store.comments[k] == store.comments[k])
    ensures Authorised(req.cookies) && req.body.Failure? ==>
              r == Outcome(ErrorReply(500, req.body.error), store)
    ensures Authorised(req.cookies) && req.body.Success? && !Destructurable(req.body.value) ==>
              r == Outcome(ErrorReply(500, DestructureError), store)
    ensures Authorised(req.cookies) && req.body.Success? && Destructurable(req.body.value)
            && DocumentId(Prop(req.body.value, "thoughtId")) && DocumentId(Prop(req.body.value, "commentId"))
            && fault.Some? ==>
              r == Outcome(ErrorReply(500, fault.value), store)
    ensures r.response.Status() != 200 ==> r.store == store
    ensures r.response.Reply?
  {
    if !Authorised(req.cookies) then Outcome(ErrorReply(401, "unauthorized"), store)
    else if req.body.Failure? then Outcome(ErrorReply(500, req.body.error), store)
    else if !Destructurable(req.body.value) then Outcome(ErrorReply(500, DestructureError), store)
    else
      var body := req.body.value;
      var thoughtId := Prop(body, "thoughtId");
      var commentId := Prop(body, "commentId");
      if !Truthy(thoughtId) || !Truthy(commentId) then
        Outcome(ErrorReply(400, "missing thoughtId or commentId"), store)
      // Either `doc(...)` throws for anything but a document id.
      else if !DocumentId(thoughtId) || !DocumentId(commentId) then Outcome(ErrorReply(500, InvalidPath), store)
      else if fault.Some? then Outcome(ErrorReply(500, fault.value), store)
      else Outcome(SuccessReply, DeleteComment(store, thoughtId, commentId))
  }
}

=== FILE: encoder.dfy ===
/** The block editor's `processBlocks` and `handleCreate`: blocks become one
  * text body with inline media markers, plus a parallel list of the uploaded
  * media, and the result is posted to the create route. */
module BodyEncoder {
  import opened Wrappers
  import opened Strings
  import opened Seqs
  import opened Json
  import opened Blocks
  import AdminCreate

  // ---------------------------------------------------------------------------
  // uploadToCloudinary
  // ---------------------------------------------------------------------------

  /** The part of the upload service's answer the editor reads. */
  datatype Uploaded = Uploaded(secureUrl: string, resourceType: string, format: string)

  /** The upload service, as a function from the file to its answer; a
    * non-ok response or a network error is a `Failure` with its message. */
  type Upload = MediaFile -> Result<Uploaded, string>

  // The `type` of an upload: "video/*" for anything the service stored as a
  // video, else the browser's MIME type, else the service's format.
  function MediaTypeOf(file: MediaFile, up: Uploaded): (t: string)
    ensures up.resourceType == "video" ==> t == "video/*"
    ensures up.resourceType != "video" && file.mimeType != "" ==> t == file.mimeType
    ensures up.resourceType != "video" && file.mimeType == "" ==> t == up.format
  {
    if up.resourceType == "video" then "video/*"
    else if file.mimeType != "" then file.mimeType
    else up.format
  }

  // ---------------------------------------------------------------------------
  // The body and the media list
  // ---------------------------------------------------------------------------

  /** `block.alignment || 'center'`. */
  function AlignOrCenter(a: string): string {
    if a == "" then "center" else a
  }

  /** An image, video or audio block with a file: the blocks that are
    * uploaded and get a marker. */
  predicate IsMediaWithFile(b: Block) {
    (b.kind == Image || b.kind == Video || b.kind == Audio) && b.file.Some?
  }

  /** An `additionalMedia` entry. */
  datatype MediaEntry =
    | ImageEntry(url: string, alignment: string, widthPercent: int)
    | VideoEntry(url: string, alignment: string, widthPercent: int)
    | AudioEntry(url: string)

  /** The inline marker that stands for a media entry in the body. */
  function MarkerOf(e: MediaEntry): string {
    match e
    case ImageEntry(_, a, w) => "[Image: " + a + ", " + IntToString(w) + "%]"
    case VideoEntry(_, a, w) => "[Video: " + a + ", " + IntToString(w) + "%]"
    case AudioEntry(_) => "[Audio]"
  }

  /** The entry pushed for a media block whose file was stored at `url`. */
  function EntryOf(b: Block, url: string): (e: MediaEntry)
    requires IsMediaWithFile(b)
    ensures e.url == url
    ensures b.kind == Image <==> e.ImageEntry?
    ensures b.kind == Video <==> e.VideoEntry?
    ensures b.kind == Audio <==> e.AudioEntry?
    ensures !e.AudioEntry? ==>
      e.alignment == AlignOrCenter(b.alignment) && e.widthPercent == WidthOr70(b.widthPercent)
  {
    if b.kind == Image then ImageEntry(url, AlignOrCenter(b.alignment), WidthOr70(b.widthPercent))
    else if b.kind == Video then VideoEntry(url, AlignOrCenter(b.alignment), WidthOr70(b.widthPercent))
    else AudioEntry(url)
  }

  /** The text one block adds to the body, before trimming. Media blocks
    * without a file and unknown kinds add nothing. */
  function Chunk(b: Block): string {
    match b.kind
    case Text => b.content + "\n\n"
    case Quote => "\"" + b.content + "\"\n\n"
    case Divider => "---\n\n"
    case Image =>
      if b.file.Some? then "[Image: " + AlignOrCenter(b.alignment) + ", " + IntToString(WidthOr70(b.widthPercent)) + "%]\n\n"
      else ""
    case Video =>
      if b.file.Some? then "[Video: " + AlignOrCenter(b.alignment) + ", " + IntToString(WidthOr70(b.widthPercent)) + "%]\n\n"
      else ""
    case Audio => if b.file.Some? then "[Audio]\n\n" else ""
    case Other(_) => ""
  }

  /** A media block's chunk is the marker of its entry, whatever the url: the
    * marker names the entry's kind and carries its alignment and width. */
  lemma MarkerMatchesChunk(b: Block, url: string)
    requires IsMediaWithFile(b)
    ensures MarkerOf(EntryOf(b, url)) + "\n\n" == Chunk(b)
  {
  }

  /** The untrimmed body: every block's chunk, in block order. */
  function RawBody(blocks: seq<Block>): string
    decreases |blocks|
  {
    if |blocks| == 0 then "" else RawBody(DropLast(blocks)) + Chunk(blocks[|blocks| - 1])
  }

  /** The body of a concatenation is the concatenation of the bodies. */
  lemma {:induction false} RawBodyAppend(a: seq<Block>, b: seq<Block>)
    ensures RawBody(a + b) == RawBody(a) + RawBody(b)
    decreases |b|
  {
    if |b| == 0 {
      assert a + b == a;
    } else {
      RawBodyAppend(a, DropLast(b));
      RawBodySnoc(a, b);
    }
  }

  /** The inductive step of `RawBodyAppend`: one more block at the end. */
  lemma RawBodySnoc(a: seq<Block>, b: seq<Block>)
    requires |b| >= 1
    requires RawBody(a + DropLast(b)) == RawBody(a) + RawBody(DropLast(b))
    ensures RawBody(a + b) == RawBody(a) + RawBody(b)
  {
    var x, y, z := RawBody(a), RawBody(DropLast(b)), Chunk(b[|b| - 1]);
    DropLastAppend(a, b);
    assert RawBody(a + b) == (x + y) + z;
    assert RawBody(b) == y + z;
    ConcatAssoc(x, y, z);
  }

  /** A text block, a divider and another text block give their two texts
    * separated by a divider line. */
  lemma TextDividerTextBody(first: Block, divider: Block, second: Block)
    requires first.kind == Text && first.content == "Hello"
    requires divider.kind == Divider
    requires second.kind == Text && second.content == "World"
    ensures Trim(RawBody([first, divider, second])) == "Hello\n\n---\n\nWorld"
  {
    var blocks := [first, divider, second];
    assert DropLast(blocks) == [first, divider];
    assert DropLast([first, divider]) == [first];
    assert DropLast([first]) == [];
    assert RawBody([first]) == "Hello\n\n";
    assert RawBody([first, divider]) == "Hello\n\n" + "---\n\n";
    assert RawBody(blocks) == "Hello\n\n" + "---\n\n" + "World\n\n";
    assert RawBody(blocks) == "Hello\n\n---\n\nWorld" + "\n\n";
    TrimSurrounded("", "Hello\n\n---\n\nWorld", "\n\n");
    assert "" + "Hello\n\n---\n\nWorld" + "\n\n" == RawBody(blocks);
  }

  /** The blocks that produce media entries, in block order. */
  function MediaBlocks(blocks: seq<Block>): (r: seq<Block>)
    ensures forall k :: 0 <= k < |r| ==> IsMediaWithFile(r[k])
    decreases |blocks|
  {
    if |blocks| == 0 then []
    else
      var last := blocks[|blocks| - 1];
      MediaBlocks(DropLast(blocks)) + if IsMediaWithFile(last) then [last] else []
  }

  /** The media blocks are exactly the media blocks with files, filtered in
    * order out of the block list. */
  lemma {:induction false} MediaBlocksIsFilter(blocks: seq<Block>)
    ensures MediaBlocks(blocks) == Filter(blocks, IsMediaWithFile)
    decreases |blocks|
  {
    if |blocks| > 0 {
      var init, last := DropLast(blocks), blocks[|blocks| - 1];
      MediaBlocksIsFilter(init);
      DropLastSnoc(blocks);
      FilterAppend(init, [last], IsMediaWithFile);
      FilterOne(last, IsMediaWithFile);
    }
  }

  /** The files uploaded, in upload order: the main image first, then the file
    * of each media block. */
  function Uploads(mainImage: Option<MediaFile>, blocks: seq<Block>): seq<MediaFile> {
    (if mainImage.Some? then [mainImage.value] else []) + BlockUploads(blocks)
  }

  function BlockUploads(blocks: seq<Block>): (r: seq<MediaFile>)
    ensures |r| == |MediaBlocks(blocks)|
    ensures forall k :: 0 <= k < |r| ==> MediaBlocks(blocks)[k].file == Some(r[k])
    decreases |blocks|
  {
    if |blocks| == 0 then []
    else
      var last := blocks[|blocks| - 1];
      BlockUploads(DropLast(blocks)) + if IsMediaWithFile(last) then [last.file.value] else []
  }

  /** The uploads of a prefix of the blocks are a prefix of all uploads. */
  lemma {:induction false} BlockUploadsPrefix(blocks: seq<Block>, j: nat)
    requires j <= |blocks|
    ensures IsPrefix(BlockUploads(blocks[..j]), BlockUploads(blocks))
    decreases |blocks|
  {
    if j < |blocks| {
      assert DropLast(blocks)[..j] == blocks[..j];
      BlockUploadsPrefix(DropLast(blocks), j);
    } else {
      assert blocks[..j] == blocks;
    }
  }

  /** How the definitions grow by one block: the facts the encoding loop
    * needs at each step. */
  lemma Extend(blocks: seq<Block>, i: nat)
    requires i < |blocks|
    ensures RawBody(blocks[..i + 1]) == RawBody(blocks[..i]) + Chunk(blocks[i])
    ensures MediaBlocks(blocks[..i + 1]) ==
      MediaBlocks(blocks[..i]) + if IsMediaWithFile(blocks[i]) then [blocks[i]] else []
    ensures BlockUploads(blocks[..i + 1]) ==
      BlockUploads(blocks[..i]) + if IsMediaWithFile(blocks[i]) then [blocks[i].file.value] else []
  {
    assert DropLast(blocks[..i + 1]) == blocks[..i];
    assert blocks[..i + 1][i] == blocks[i];
  }

  /** Entry `e` is what the loop pushes for media block `b`: the block's file
    * uploaded, and the entry built from the url it was stored at. */
  predicate Encodes(e: MediaEntry, b: Block, upload: Upload) {
    IsMediaWithFile(b)
    && upload(b.file.value).Success?
    && e == EntryOf(b, upload(b.file.value).value.secureUrl)
  }

  /** What `processBlocks` returns. */
  datatype Processed = Processed(
    body: string,
    mediaUrl: Option<string>,
    mediaType: Option<string>,
    additionalMedia: seq<MediaEntry>)

  /** One turn of the block loop: the text the block adds and, for a media
    * block with a file, its upload and entry. A failed upload is reported
    * with its message. */
  method EncodeBlock(b: Block, upload: Upload) returns (chunk: string, entry: Option<MediaEntry>, failure: Option<string>)
    ensures failure.Some? <==> IsMediaWithFile(b) && upload(b.file.value).Failure?
    ensures failure.Some? ==> upload(b.file.value) == Failure(failure.value)
    ensures failure.None? ==> chunk == Chunk(b)
    ensures failure.None? ==> (entry.Some? <==> IsMediaWithFile(b))
    ensures failure.None? && entry.Some? ==> Encodes(entry.value, b, upload)
  {
    chunk, entry, failure := "", None, None;
    if b.kind == Text {
      chunk := b.content + "\n\n";
    } else if b.kind == Quote {
      chunk := "\"" + b.content + "\"\n\n";
    } else if b.kind == Divider {
      chunk := "---\n\n";
    } else if IsMediaWithFile(b) {
      var up := upload(b.file.value);
      if up.Failure? {
        return "", None, Some(up.error);
      }
      var e := EntryOf(b, up.value.secureUrl);
      MarkerMatchesChunk(b, up.value.secureUrl);
      chunk, entry := MarkerOf(e) + "\n\n", Some(e);
    }
  }

  /** Every file in `calls` was stored by the upload service. */
  predicate AllUploaded(calls: seq<MediaFile>, upload: Upload) {
    forall k :: 0 <= k < |calls| ==> upload(calls[k]).Success?
  }

  /** The k-th entry of `media` is what the loop pushes for the k-th block of
    * `mediaBlocks`. */
  predicate EncodesAll(media: seq<MediaEntry>, mediaBlocks: seq<Block>, upload: Upload) {
    |media| == |mediaBlocks| && forall k :: 0 <= k < |media| ==> Encodes(media[k], mediaBlocks[k], upload)
  }

  lemma AllUploadedSnoc(calls: seq<MediaFile>, f: MediaFile, upload: Upload)
    requires AllUploaded(calls, upload) && upload(f).Success?
    ensures AllUploaded(calls + [f], upload)
  {
    assert forall k :: 0 <= k < |calls| ==> (calls + [f])[k] == calls[k];
  }

  lemma EncodesAllSnoc(media: seq<MediaEntry>, mediaBlocks: seq<Block>, e: MediaEntry, b: Block, upload: Upload)
    requires EncodesAll(media, mediaBlocks, upload) && Encodes(e, b, upload)
    ensures EncodesAll(media + [e], mediaBlocks + [b], upload)
  {
    assert forall k :: 0 <= k < |media| ==> (media + [e])[k] == media[k] && (mediaBlocks + [b])[k] == mediaBlocks[k];
  }

  /** The block loop of `processBlocks`: the untrimmed body and the media
    * list, or the first failed upload. `calls` records the files handed to
    * the upload service, in order. */
  method EncodeBlocks(blocks: seq<Block>, upload: Upload)
    returns (r: Result<(string, seq<MediaEntry>), string>, calls: seq<MediaFile>)
    ensures IsPrefix(calls, BlockUploads(blocks))
    ensures forall k :: 0 <= k < |calls| - 1 ==> upload(calls[k]).Success?
    ensures r.Success? <==> calls == BlockUploads(blocks) && AllUploaded(calls, upload)
    ensures r.Failure? ==> |calls| > 0 && upload(calls[|calls| - 1]) == Failure(r.error)
    ensures r.Success? ==> r.value.0 == RawBody(blocks) && EncodesAll(r.value.1, MediaBlocks(blocks), upload)
  {
    calls := [];
    var body := "";
    var media: seq<MediaEntry> := [];
    var i := 0;
    assert blocks[..0] == [];
    while i < |blocks|
      invariant 0 <= i <= |blocks|
      invariant body == RawBody(blocks[..i])
      invariant EncodesAll(media, MediaBlocks(blocks[..i]), upload)
      invariant calls == BlockUploads(blocks[..i])
      invariant AllUploaded(calls, upload)
    {
      Extend(blocks, i);
      var chunk, entry, failure := EncodeBlock(blocks[i], upload);
      if failure.Some? {
        FailedUploadCalls(blocks, i, calls, blocks[i].file.value, upload);
        return Failure(failure.value), calls + [blocks[i].file.value];
      }
      if IsMediaWithFile(blocks[i]) {
        AllUploadedSnoc(calls, blocks[i].file.value, upload);
        EncodesAllSnoc(media, MediaBlocks(blocks[..i]), entry.value, blocks[i], upload);
        calls := calls + [blocks[i].file.value];
        media := media + [entry.value];
      }
      body := body + chunk;
      i := i + 1;
    }
    assert blocks[..i] == blocks;
    r := Success((body, media));
  }

  /** A run that stops at a failed upload has made a prefix of the planned
    * calls, all but the last of which succeeded. */
  lemma FailedUploadCalls(blocks: seq<Block>, i: nat, prev: seq<MediaFile>, f: MediaFile, upload: Upload)
    requires i < |blocks| && prev + [f] == BlockUploads(blocks[..i + 1])
    requires AllUploaded(prev, upload) && upload(f).Failure?
    ensures IsPrefix(prev + [f], BlockUploads(blocks))
    ensures !AllUploaded(prev + [f], upload)
    ensures forall k :: 0 <= k < |prev| ==> upload((prev + [f])[k]).Success?
  {
    BlockUploadsPrefix(blocks, i + 1);
    assert (prev + [f])[|prev|] == f;
  }

  /** Every entry's marker is its media block's chunk. */
  lemma MarkersMatch(media: seq<MediaEntry>, mediaBlocks: seq<Block>, upload: Upload)
    requires EncodesAll(media, mediaBlocks, upload)
    ensures forall k :: 0 <= k < |media| ==> MarkerOf(media[k]) + "\n\n" == Chunk(mediaBlocks[k])
  {
    forall k | 0 <= k < |media|
      ensures MarkerOf(media[k]) + "\n\n" == Chunk(mediaBlocks[k])
    {
      MarkerMatchesChunk(mediaBlocks[k], upload(mediaBlocks[k].file.value).value.secureUrl);
    }
  }

  /** `processBlocks`. `calls` records the files handed to the upload service,
    * in order; the first failed upload ends the run with its message.
    * On success the body is the trimmed concatenation of the block chunks,
    * the k-th media entry belongs to the k-th media block and its marker is
    * that block's chunk, and the main image, uploaded first, only sets
    * `mediaUrl` and `mediaType`. */
  method ProcessBlocks(mainImage: Option<MediaFile>, blocks: seq<Block>, upload: Upload)
    returns (r: Result<Processed, string>, calls: seq<MediaFile>)
    ensures IsPrefix(calls, Uploads(mainImage, blocks))
    ensures forall k :: 0 <= k < |calls| - 1 ==> upload(calls[k]).Success?
    ensures r.Success? <==> calls == Uploads(mainImage, blocks) && AllUploaded(calls, upload)
    ensures r.Failure? ==> |calls| > 0 && upload(calls[|calls| - 1]) == Failure(r.error)
    ensures r.Success? ==>
      && r.value.body == Trim(RawBody(blocks))
      && EncodesAll(r.value.additionalMedia, MediaBlocks(blocks), upload)
      && (forall k :: 0 <= k < |r.value.additionalMedia| ==>
            MarkerOf(r.value.additionalMedia[k]) + "\n\n" == Chunk(MediaBlocks(blocks)[k]))
    ensures r.Success? && mainImage.None? ==> r.value.mediaUrl == None && r.value.mediaType == None
    ensures r.Success? && mainImage.Some? ==>
      && upload(mainImage.value).Success?
      && r.value.mediaUrl == Some(upload(mainImage.value).value.secureUrl)
      && r.value.mediaType == Some(MediaTypeOf(mainImage.value, upload(mainImage.value).value))
  {
    var main: seq<MediaFile> := if mainImage.Some? then [mainImage.value] else [];
    var mediaUrl: Option<string> := None;
    var mediaType: Option<string> := None;
    if mainImage.Some? {
      var up := upload(mainImage.value);
      if up.Failure? {
        assert main[0] == mainImage.value;
        return Failure(up.error), main;
      }
      mediaUrl := Some(up.value.secureUrl);
      mediaType := Some(MediaTypeOf(mainImage.value, up.value));
    }
    var encoded, blockCalls := EncodeBlocks(blocks, upload);
    MainThenBlocks(main, blockCalls, blocks, upload);
    calls := main + blockCalls;
    if encoded.Failure? {
      return Failure(encoded.error), calls;
    }
    MarkersMatch(encoded.value.1, MediaBlocks(blocks), upload);
    r := Success(Processed(Trim(encoded.value.0), mediaUrl, mediaType, encoded.value.1));
  }

  /** The calls of `processBlocks`: the main image's upload, if any and
    * stored, followed by those of the block loop. */
  lemma MainThenBlocks(main: seq<MediaFile>, blockCalls: seq<MediaFile>, blocks: seq<Block>, upload: Upload)
    requires AllUploaded(main, upload)
    requires IsPrefix(blockCalls, BlockUploads(blocks))
    requires forall k :: 0 <= k < |blockCalls| - 1 ==> upload(blockCalls[k]).Success?
    ensures IsPrefix(main + blockCalls, main + BlockUploads(blocks))
    ensures forall k :: 0 <= k < |main + blockCalls| - 1 ==> upload((main + blockCalls)[k]).Success?
    ensures AllUploaded(main + blockCalls, upload) <==> AllUploaded(blockCalls, upload)
    ensures main + blockCalls == main + BlockUploads(blocks) <==> blockCalls == BlockUploads(blocks)
    ensures |blockCalls| > 0 ==> (main + blockCalls)[|main + blockCalls| - 1] == blockCalls[|blockCalls| - 1]
  {
    var calls := main + blockCalls;
    assert forall k :: |main| <= k < |calls| ==> calls[k] == blockCalls[k - |main|];
    assert calls[|main|..] == blockCalls;
    assert (main + BlockUploads(blocks))[|main|..] == BlockUploads(blocks);
    assert calls[..|main|] == main;
  }

  // ---------------------------------------------------------------------------
  // handleCreate
  // ---------------------------------------------------------------------------

  /** An entry as `JSON.stringify` sends it. */
  function EntryJson(e: MediaEntry): Value {
    match e
    case ImageEntry(url, a, w) =>
      Obj([("type", Str("image")), ("url", Str(url)), ("alignment", Str(a)), ("widthPercent", Num(w))])
    case VideoEntry(url, a, w) =>
      Obj([("type", Str("video")), ("url", Str(url)), ("alignment", Str(a)), ("widthPercent", Num(w))])
    case AudioEntry(url) =>
      Obj([("type", Str("audio")), ("url", Str(url))])
  }

  function OptionJson(v: Option<string>): Value {
    if v.Some? then Str(v.value) else Null
  }

  /** The create request's body without the media list. */
  function PostFields(title: string, p: Processed): Value {
    var withTitle := With(Obj([]), "title", Str(title));
    var withContent := With(withTitle, "content", Str(p.body));
    var withUrl := With(withContent, "mediaUrl", OptionJson(p.mediaUrl));
    With(withUrl, "mediaType", OptionJson(p.mediaType))
  }

  /** The body `handleCreate` posts to the create route. */
  function CreateRequest(title: string, p: Processed): (v: Value)
    ensures Prop(v, "title") == Str(title) && Prop(v, "content") == Str(p.body)
    ensures Prop(v, "mediaUrl") == OptionJson(p.mediaUrl) && Prop(v, "mediaType") == OptionJson(p.mediaType)
    ensures Prop(v, "additionalMedia") == Arr(seq(|p.additionalMedia|, k requires 0 <= k < |p.additionalMedia| => EntryJson(p.additionalMedia[k])))
  {
    assert Prop(PostFields(title, p), "title") == Str(title);
    assert Prop(PostFields(title, p), "content") == Str(p.body);
    assert Prop(PostFields(title, p), "mediaUrl") == OptionJson(p.mediaUrl);
    With(PostFields(title, p), "additionalMedia",
         Arr(seq(|p.additionalMedia|, k requires 0 <= k < |p.additionalMedia| => EntryJson(p.additionalMedia[k]))))
  }

  /** How `handleCreate` ends on the client side. */
  datatype CreateOutcome =
    | TitleRequired
    | Failed(message: string)
    | Sent(request: Value)

  /** `handleCreate` up to the request: an empty title is refused before any
    * upload; otherwise the blocks are processed and, unless an upload fails,
    * the title, the body, the main image's url and type and the media list
    * are posted. */
  method HandleCreate(title: string, mainImage: Option<MediaFile>, blocks: seq<Block>, upload: Upload)
    returns (o: CreateOutcome, calls: seq<MediaFile>)
    ensures title == "" <==> o == TitleRequired
    ensures title == "" ==> calls == []
    ensures IsPrefix(calls, Uploads(mainImage, blocks))
    ensures title != "" ==> (o.Sent? <==> calls == Uploads(mainImage, blocks) && AllUploaded(calls, upload))
    ensures o.Failed? ==> |calls| > 0 && upload(calls[|calls| - 1]) == Failure(o.message)
    ensures o.Sent? ==>
      && calls == Uploads(mainImage, blocks)
      && Prop(o.request, "title") == Str(title)
      && Prop(o.request, "content") == Str(Trim(RawBody(blocks)))
      && Prop(o.request, "additionalMedia").Arr?
      && SendsEntries(Prop(o.request, "additionalMedia").items, MediaBlocks(blocks), upload)
    ensures o.Sent? && mainImage.None? ==> Prop(o.request, "mediaUrl") == Null && Prop(o.request, "mediaType") == Null
    ensures o.Sent? && mainImage.Some? ==>
      && upload(mainImage.value).Success?
      && Prop(o.request, "mediaUrl") == Str(upload(mainImage.value).value.secureUrl)
      && Prop(o.request, "mediaType") == Str(MediaTypeOf(mainImage.value, upload(mainImage.value).value))
  {
    if title == "" {
      return TitleRequired, [];
    }
    var r;
    r, calls := ProcessBlocks(mainImage, blocks, upload);
    if r.Failure? {
      return Failed(r.error), calls;
    }
    o := Sent(CreateRequest(title, r.value));
    SendsEntriesOf(r.value.additionalMedia, MediaBlocks(blocks), upload);
  }

  /** The k-th media item of a request is the JSON of the entry the loop
    * pushes for the k-th media block: its file stored, and the entry built
    * from the url it was stored at. */
  predicate SendsEntries(items: seq<Value>, mediaBlocks: seq<Block>, upload: Upload) {
    && |items| == |mediaBlocks|
    && forall k :: 0 <= k < |items| ==>
         && IsMediaWithFile(mediaBlocks[k])
         && upload(mediaBlocks[k].file.value).Success?
         && items[k] == EntryJson(EntryOf(mediaBlocks[k], upload(mediaBlocks[k].file.value).value.secureUrl))
  }

  lemma SendsEntriesOf(media: seq<MediaEntry>, mediaBlocks: seq<Block>, upload: Upload)
    requires EncodesAll(media, mediaBlocks, upload)
    ensures SendsEntries(seq(|media|, k requires 0 <= k < |media| => EntryJson(media[k])), mediaBlocks, upload)
  {
    var items := seq(|media|, k requires 0 <= k < |media| => EntryJson(media[k]));
    forall k | 0 <= k < |items|
      ensures IsMediaWithFile(mediaBlocks[k]) && upload(mediaBlocks[k].file.value).Success?
      ensures items[k] == EntryJson(EntryOf(mediaBlocks[k], upload(mediaBlocks[k].file.value).value.secureUrl))
    {
      assert Encodes(media[k], mediaBlocks[k], upload);
    }
  }

  /** The media list the editor posts never reaches the store: the create
    * route writes the same record as for the request without it. */
  lemma MediaListNotStored(title: string, p: Processed)
    ensures AdminCreate.StoredRecord(CreateRequest(title, p)) == AdminCreate.StoredRecord(PostFields(title, p))
    ensures "additionalMedia" !in AdminCreate.StoredRecord(CreateRequest(title, p))
  {
    AdminCreate.IgnoresAdditionalMedia(map[], PostFields(title, p), Prop(CreateRequest(title, p), "additionalMedia"),
                                       true, AdminCreate.Store.Store(map[], map[]), "", None);
  }
}

=== FILE: http.dfy ===
/** Requests, responses and cookies of the route handlers. */
module Http {
  import opened Wrappers
  import opened Json

  /** The cookie names and values a browser sends with a request. */
  type Jar = map<string, string>

  /** `cookies.get(name)?.value`. */
  function CookieValue(jar: Jar, name: string): Option<string> {
    if name in jar then Some(jar[name]) else None
  }

  /** Attributes a handler attaches to a cookie it sets. */
  datatype CookieOptions = CookieOptions(
    httpOnly: bool,
    secure: bool,
    sameSite: Option<string>,
    maxAge: Option<int>,
    path: string)

  /** A `Set-Cookie` instruction in a response. */
  datatype CookieOp =
    | SetCookie(name: string, value: string, options: CookieOptions)
    | DeleteCookie(name: string, path: string)

  /** The browser's jar after it obeys one cookie instruction. Expiry over
      time is not modelled: a set cookie stays set. */
  function ApplyCookie(jar: Jar, op: CookieOp): (jar': Jar)
    ensures op.SetCookie? ==> jar' == jar[op.name := op.value]
    ensures op.DeleteCookie? ==> jar' == jar - {op.name}
  {
    match op
    case SetCookie(n, v, _) => jar[n := v]
    case DeleteCookie(n, _) => jar - {n}
  }

  /** The jar after a response's cookie instructions, in order. */
  function ApplyCookies(jar: Jar, ops: seq<CookieOp>): Jar
    decreases |ops|
  {
    if |ops| == 0 then jar else ApplyCookies(ApplyCookie(jar, ops[0]), ops[1..])
  }

  lemma ApplyOneCookie(jar: Jar, op: CookieOp)
    ensures ApplyCookies(jar, [op]) == ApplyCookie(jar, op)
  {
    assert [op][1..] == [];
  }

  /** A request as a handler sees it: cookies and the outcome of
      `req.json()` (a parse failure carries the parser's message). */
  datatype Request = Request(cookies: Jar, body: Result<Value, string>)

  /** A handler's answer. `Crash` is an exception the handler does not catch,
      which the framework turns into a bare 500 response. */
  datatype Response =
    | Reply(status: int, body: Value)
    | Crash
  {
    /** The HTTP status the client observes. */
    function Status(): int {
      if Reply? then status else 500
    }
  }

  /** The message a `TypeError` from destructuring `null` carries; its exact
      wording is the engine's. */
  const DestructureError: string := "Cannot destructure request body"

  /** `NextResponse.json({ error: msg }, { status })`. */
  function ErrorReply(status: int, msg: string): Response {
    Reply(status, Obj([("error", Str(msg))]))
  }

  /** `NextResponse.json({ success: true })`. */
  const SuccessReply: Response := Reply(200, Obj([("success", Bool(true))]))
}

=== FILE: json.dfy ===
/** JSON values as the route handlers see them after `req.json()`, and the
    JavaScript truthiness rules the handlers apply to them. */
module Json {

  /** A JavaScript value that can appear in a request body or a stored
      document. Numbers are integers; `ServerTimestamp` is the store's
      server-time sentinel and `Date` a client clock reading in ms. */
  datatype Value =
    | Undefined
    | Null
    | Bool(b: bool)
    | Num(n: int)
    | Str(s: string)
    | Arr(items: seq<Value>)
    | Obj(fields: seq<(string, Value)>)
    | ServerTimestamp
    | Date(ms: int)

  /** JavaScript truthiness: `undefined`, `null`, `false`, `0` and `""` are
      falsy, everything else is truthy. */
  predicate Truthy(v: Value) {
    match v
    case Undefined => false
    case Null => false
    case Bool(b) => b
    case Num(n) => n != 0
    case Str(s) => s != ""
    case _ => true
  }

  /** `v || null`. */
  function OrNull(v: Value): Value {
    if Truthy(v) then v else Null
  }

  /** The value bound to `k` in a member list; the last binding wins, as in
      `JSON.parse` and object spread. */
  function Lookup(fields: seq<(string, Value)>, k: string): Value {
    if |fields| == 0 then Undefined
    else if fields[|fields| - 1].0 == k then fields[|fields| - 1].1
    else Lookup(fields[..|fields| - 1], k)
  }

  /** Destructuring `const { k } = v` is defined unless `v` is null or
      undefined. */
  predicate Destructurable(v: Value) {
    !v.Null? && !v.Undefined?
  }

  /** The property `k` that destructuring reads from `v`: an object's own
      binding, and `undefined` on every other kind of value. */
  function Prop(v: Value, k: string): Value {
    if v.Obj? then Lookup(v.fields, k) else Undefined
  }

  /** `{ ...v, [k]: x }` for an object `v`. */
  function With(v: Value, k: string, x: Value): (r: Value)
    requires v.Obj?
    ensures Prop(r, k) == x
    ensures forall j :: j != k ==> Prop(r, j) == Prop(v, j)
  {
    Obj(v.fields + [(k, x)])
  }
}

=== FILE: manage.dfy ===
/** The manage page's client-side list logic: the search filter, the grouping
  * by day and the list update after a delete. */
module Manage {
  import opened Wrappers
  import opened Strings
  import opened Seqs
  import opened Json

  /** A loaded post. A missing or null title or content is `None`; `dateKey`
    * stands for `createdAt.toDateString()`. */
  datatype Thought = Thought(id: string, title: Option<string>, content: Option<string>, dateKey: string)

  // ---------------------------------------------------------------------------
  // Search
  // ---------------------------------------------------------------------------

  /** `text?.toLowerCase().includes(searchLower)`: false for a missing text. */
  predicate FieldMatches(text: Option<string>, term: string) {
    text.Some? && Contains(Lower(text.value), Lower(term))
  }

  /** The filter's callback: the title or else the content contains the term,
    * both compared in lower case. */
  predicate Matches(t: Thought, term: string) {
    FieldMatches(t.title, term) || FieldMatches(t.content, term)
  }

  /** `filteredThoughts`: the matching thoughts, in loaded order. A thought
    * with neither title nor content never shows. */
  function FilterThoughts(thoughts: seq<Thought>, term: string): (r: seq<Thought>)
    ensures forall i :: 0 <= i < |r| ==> Matches(r[i], term)
    ensures forall i :: 0 <= i < |thoughts| && Matches(thoughts[i], term) ==> thoughts[i] in r
    ensures forall i :: 0 <= i < |r| ==> r[i] in thoughts
    ensures forall i :: 0 <= i < |r| ==> r[i].title.Some? || r[i].content.Some?
    ensures IsSubsequence(r, thoughts)
  {
    Filter(thoughts, (t: Thought) => Matches(t, term))
  }

  lemma LowerCharIdempotent(ch: char)
    ensures LowerChar(LowerChar(ch)) == LowerChar(ch)
  {
  }

  /** Lower-casing twice is lower-casing once. */
  lemma LowerIdempotent(s: string)
    ensures Lower(Lower(s)) == Lower(s)
  {
    forall i | 0 <= i < |s|
      ensures Lower(Lower(s))[i] == Lower(s)[i]
    {
      LowerCharIdempotent(s[i]);
    }
  }

  /** The search ignores the case of the term. */
  lemma SearchIgnoresCase(t: Thought, term: string)
    ensures Matches(t, term) <==> Matches(t, Lower(term))
  {
    LowerIdempotent(term);
  }

  /** An empty search keeps exactly the thoughts that have a title or a
    * content, even an empty one. */
  lemma EmptySearch(t: Thought)
    ensures Matches(t, "") <==> t.title.Some? || t.content.Some?
  {
    if t.title.Some? {
      assert OccursAt(Lower(t.title.value), Lower(""), 0);
    }
    if t.content.Some? {
      assert OccursAt(Lower(t.content.value), Lower(""), 0);
    }
  }

  // ---------------------------------------------------------------------------
  // Grouping by day
  // ---------------------------------------------------------------------------

  /** One day's bucket of the `reduce` accumulator. */
  datatype Group = Group(key: string, items: seq<Thought>)

  /** The thoughts of one day, in list order. */
  function OnDate(xs: seq<Thought>, key: string): (r: seq<Thought>)
    ensures forall i :: 0 <= i < |r| ==> r[i].dateKey == key && r[i] in xs
    ensures forall i :: 0 <= i < |xs| && xs[i].dateKey == key ==> xs[i] in r
    ensures |r| <= |xs|
  {
    if |xs| == 0 then []
    else (if xs[0].dateKey == key then [xs[0]] else []) + OnDate(xs[1..], key)
  }

  lemma {:induction false} OnDateAppend(xs: seq<Thought>, ys: seq<Thought>, key: string)
    ensures OnDate(xs + ys, key) == OnDate(xs, key) + OnDate(ys, key)
    decreases |xs|
  {
    if |xs| == 0 {
      assert xs + ys == ys;
    } else {
      assert (xs + ys)[1..] == xs[1..] + ys;
      OnDateAppend(xs[1..], ys, key);
    }
  }

  /** A day's bucket is the list filtered on that day. */
  lemma {:induction false} OnDateIsFilter(xs: seq<Thought>, key: string)
    ensures OnDate(xs, key) == Filter(xs, (t: Thought) => t.dateKey == key)
    decreases |xs|
  {
    if |xs| > 0 {
      OnDateIsFilter(xs[1..], key);
    }
  }

  /** One step of the `reduce`: push onto the thought's day bucket, opening a
    * new bucket at the end when the day has none yet. */
  function Push(groups: seq<Group>, t: Thought): (r: seq<Group>)
    decreases |groups|
  {
    if |groups| == 0 then [Group(t.dateKey, [t])]
    else if groups[0].key == t.dateKey then [groups[0].(items := groups[0].items + [t])] + groups[1..]
    else [groups[0]] + Push(groups[1..], t)
  }

  /** The day of every bucket, as a set. */
  function Keys(groups: seq<Group>): set<string> {
    set j | 0 <= j < |groups| :: groups[j].key
  }

  /** No two buckets share a day. */
  predicate DistinctKeys(groups: seq<Group>) {
    forall i, j :: 0 <= i < j < |groups| ==> groups[i].key != groups[j].key
  }

  /** The number of thoughts over all buckets. */
  function Total(groups: seq<Group>): nat {
    if |groups| == 0 then 0 else |groups[0].items| + Total(groups[1..])
  }

  /** The days of a list, as a set. */
  function Days(xs: seq<Thought>): set<string> {
    set i | 0 <= i < |xs| :: xs[i].dateKey
  }

  /** The buckets describe the list `xs`: distinct days, exactly the days of
    * the list, each bucket holding that day's thoughts in list order, and
    * the sizes summing to the list's length. */
  predicate Describes(groups: seq<Group>, xs: seq<Thought>) {
    && DistinctKeys(groups)
    && Keys(groups) == Days(xs)
    && (forall j :: 0 <= j < |groups| ==> groups[j].items == OnDate(xs, groups[j].key))
    && Total(groups) == |xs|
  }

  /** `groupedThoughts`, buckets in order of first appearance: every thought
    * lands in exactly one bucket, the one for its day. */
  function GroupByDate(xs: seq<Thought>): (r: seq<Group>)
    ensures Describes(r, xs)
    decreases |xs|
  {
    if |xs| == 0 then []
    else
      var before := GroupByDate(DropLast(xs));
      GroupStep(DropLast(xs), xs[|xs| - 1], before);
      assert xs == DropLast(xs) + [xs[|xs| - 1]];
      Push(before, xs[|xs| - 1])
  }

  /** One `reduce` step keeps the buckets faithful to the growing list. */
  lemma GroupStep(init: seq<Thought>, t: Thought, groups: seq<Group>)
    requires Describes(groups, init)
    ensures Describes(Push(groups, t), init + [t])
  {
    PushDistinct(groups, t);
    PushTotal(groups, t);
    GroupStepKeys(init, t, groups);
    GroupStepItems(init, t, groups);
  }

  lemma GroupStepKeys(init: seq<Thought>, t: Thought, groups: seq<Group>)
    requires DistinctKeys(groups) && Keys(groups) == Days(init)
    ensures Keys(Push(groups, t)) == Days(init + [t])
  {
    var xs := init + [t];
    var r := Push(groups, t);
    PushShape(groups, t);
    assert Days(xs) == Days(init) + {t.dateKey} by {
      forall i | 0 <= i < |init| ensures xs[i] == init[i] { }
      assert xs[|init|] == t;
    }
    forall j | 0 <= j < |r| ensures r[j].key in Keys(groups) + {t.dateKey} {
      if j < |groups| { assert r[j].key == groups[j].key; }
    }
    forall j | 0 <= j < |groups| ensures groups[j].key in Keys(r) {
      assert r[j].key == groups[j].key;
    }
    if t.dateKey !in Keys(groups) {
      assert r[|groups|].key == t.dateKey;
    }
  }

  lemma GroupStepItems(init: seq<Thought>, t: Thought, groups: seq<Group>)
    requires DistinctKeys(groups) && Keys(groups) == Days(init)
    requires forall j :: 0 <= j < |groups| ==> groups[j].items == OnDate(init, groups[j].key)
    ensures forall j :: 0 <= j < |Push(groups, t)| ==>
      Push(groups, t)[j].items == OnDate(init + [t], Push(groups, t)[j].key)
  {
    var r := Push(groups, t);
    PushShape(groups, t);
    forall j | 0 <= j < |r|
      ensures r[j].items == OnDate(init + [t], r[j].key)
    {
      OnDateAppend(init, [t], r[j].key);
      if j == |groups| {
        NoBucketNoThoughts(init, t.dateKey);
      }
    }
  }

  /** A day with no thoughts in the list has an empty bucket. */
  lemma NoBucketNoThoughts(xs: seq<Thought>, key: string)
    requires key !in Days(xs)
    ensures OnDate(xs, key) == []
  {
  }

  lemma KeysCons(groups: seq<Group>)
    requires |groups| > 0
    ensures Keys(groups) == {groups[0].key} + Keys(groups[1..])
  {
    forall j | 0 <= j < |groups| ensures groups[j].key in {groups[0].key} + Keys(groups[1..]) {
      if j > 0 { assert groups[j] == groups[1..][j - 1]; }
    }
  }

  /** What `Push` does to buckets with distinct days: the thought's bucket, if
    * any, gains it at the end; otherwise a new bucket holding it is appended. */
  lemma {:induction false} PushShape(groups: seq<Group>, t: Thought)
    requires DistinctKeys(groups)
    ensures t.dateKey in Keys(groups) ==> |Push(groups, t)| == |groups|
    ensures t.dateKey !in Keys(groups) ==>
      |Push(groups, t)| == |groups| + 1 && Push(groups, t)[|groups|] == Group(t.dateKey, [t])
    ensures forall j :: 0 <= j < |groups| ==>
      Push(groups, t)[j] == Group(groups[j].key, groups[j].items + if groups[j].key == t.dateKey then [t] else [])
    decreases |groups|
  {
    if |groups| > 0 {
      KeysCons(groups);
      var g := groups[0];
      if g.key != t.dateKey {
        var rest := Push(groups[1..], t);
        PushShape(groups[1..], t);
        assert Push(groups, t) == [g] + rest;
        forall j | 0 < j < |groups|
          ensures Push(groups, t)[j] == Group(groups[j].key, groups[j].items + if groups[j].key == t.dateKey then [t] else [])
        {
          assert groups[j] == groups[1..][j - 1];
        }
      } else {
        forall j | 0 < j < |groups| ensures groups[j].key != t.dateKey {
          assert groups[0].key != groups[j].key;
        }
      }
    }
  }

  /** Pushing keeps the days distinct. */
  lemma PushDistinct(groups: seq<Group>, t: Thought)
    requires DistinctKeys(groups)
    ensures DistinctKeys(Push(groups, t))
  {
    var r := Push(groups, t);
    PushShape(groups, t);
    forall i, j | 0 <= i < j < |r| ensures r[i].key != r[j].key {
      assert r[i].key == groups[i].key;
      if j < |groups| {
        assert r[j].key == groups[j].key;
      } else {
        assert groups[i].key in Keys(groups);
      }
    }
  }

  /** Pushing adds exactly one thought. */
  lemma {:induction false} PushTotal(groups: seq<Group>, t: Thought)
    ensures Total(Push(groups, t)) == Total(groups) + 1
    decreases |groups|
  {
    var r := Push(groups, t);
    if |groups| > 0 {
      if groups[0].key == t.dateKey {
        assert r[1..] == groups[1..];
      } else {
        PushTotal(groups[1..], t);
        assert r[1..] == Push(groups[1..], t);
      }
    }
  }

  // ---------------------------------------------------------------------------
  // Delete
  // ---------------------------------------------------------------------------

  /** The delete call succeeded: the response parsed and its `success` member
    * is truthy. A network error or an unparsable response is `Failure`. */
  predicate DeleteSucceeded(data: Result<Value, string>) {
    data.Success? && Truthy(Prop(data.value, "success"))
  }

  /** The list after `handleDelete`: on success the thoughts with that id are
    * gone and the others stay in order; otherwise the list is unchanged. */
  function AfterDelete(thoughts: seq<Thought>, id: string, data: Result<Value, string>): (r: seq<Thought>)
    ensures DeleteSucceeded(data) ==>
      && (forall i :: 0 <= i < |r| ==> r[i].id != id)
      && (forall i :: 0 <= i < |thoughts| && thoughts[i].id != id ==> thoughts[i] in r)
      && (forall i :: 0 <= i < |r| ==> r[i] in thoughts)
      && IsSubsequence(r, thoughts)
    ensures DeleteSucceeded(data) ==>
      forall t: Thought :: multiset(r)[t] == if t.id != id then multiset(thoughts)[t] else 0
    ensures !DeleteSucceeded(data) ==> r == thoughts
  {
    var keep := (t: Thought) => t.id != id;
    assert forall t: Thought :: multiset(Filter(thoughts, keep))[t] == if t.id != id then multiset(thoughts)[t] else 0 by {
      forall t: Thought {
        FilterMultiset(thoughts, keep, t);
      }
    }
    if DeleteSucceeded(data) then Filter(thoughts, keep) else thoughts
  }

  /** Deleting again after a successful delete leaves the list as it is,
    * whatever the second response says. */
  lemma {:induction false} AfterDeleteIdempotent(thoughts: seq<Thought>, id: string,
                                                 first: Result<Value, string>, second: Result<Value, string>)
    requires DeleteSucceeded(first)
    ensures AfterDelete(AfterDelete(thoughts, id, first), id, second) == AfterDelete(thoughts, id, first)
  {
    var once := AfterDelete(thoughts, id, first);
    if DeleteSucceeded(second) {
      FilterAll(once, (t: Thought) => t.id != id);
    }
  }
}

=== FILE: middleware.dfy ===
/** `middleware.js`: the guard in front of the admin pages. */
module Middleware {
  import opened Wrappers
  import opened Strings
  import opened Http

  datatype Decision = Next | Redirect(location: string)

  /** A path matched by the pattern `prefix/:path*`: the prefix itself or
      the prefix followed by further segments. */
  predicate MatchesPattern(path: string, prefix: string) {
    path == prefix || StartsWith(path, prefix + "/")
  }

  /** `config.matcher`: the paths the framework runs the middleware on. */
  predicate Matched(path: string) {
    MatchesPattern(path, "/thoughts/admin") || MatchesPattern(path, "/admin")
  }

  /** The paths the middleware protects. */
  predicate Guarded(path: string) {
    StartsWith(path, "/thoughts/admin")
  }

  predicate HasSession(jar: Jar) {
    CookieValue(jar, "admin-authenticated") == Some("true")
  }

  /** `middleware(request)`: a guarded path without an `admin-authenticated`
      cookie equal to `"true"` is sent to the login page; everything else
      passes. */
  function Decide(path: string, jar: Jar): (d: Decision)
    ensures d.Redirect? ==> d.location == "/admin/login"
    ensures d.Next? <==> !Guarded(path) || HasSession(jar)
  {
    GuardConditionIsGuarded(path);
    if StartsWith(path, "/thoughts/admin") && !StartsWith(path, "/admin/login") then
      var cookie := CookieValue(jar, "admin-authenticated");
      if cookie.None? || cookie.value != "true" then Redirect("/admin/login") else Next
    else Next
  }

  /** The `!startsWith('/admin/login')` conjunct never excludes a path the
      first conjunct admits: the two prefixes differ in their second
      character. */
  lemma LoginExclusionRedundant(path: string)
    requires StartsWith(path, "/thoughts/admin")
    ensures !StartsWith(path, "/admin/login")
  {
    assert path[1] == "/thoughts/admin"[1] == 't';
    assert "/admin/login"[1] == 'a';
  }

  lemma GuardConditionIsGuarded(path: string)
    ensures (StartsWith(path, "/thoughts/admin") && !StartsWith(path, "/admin/login")) <==> Guarded(path)
  {
    if Guarded(path) { LoginExclusionRedundant(path); }
  }

  /** `/admin/...` paths are matched but never guarded. */
  lemma AdminPathsUnguarded(path: string)
    requires MatchesPattern(path, "/admin")
    ensures !Guarded(path)
  {
    assert path[1] == 'a';
  }

  /** What a request to `path` meets: the middleware on matched paths,
      nothing on the rest. */
  function Route(path: string, jar: Jar): (d: Decision)
    ensures MatchesPattern(path, "/admin") ==> d == Next
    ensures d.Redirect? <==> Matched(path) && Guarded(path) && !HasSession(jar)
  {
    if MatchesPattern(path, "/admin") then AdminPathsUnguarded(path); Next
    else if Matched(path) then Decide(path, jar) else Next
  }
}

=== FILE: preferences.dfy ===
/** The theme provider (`app/context/ThemeContext.js`): a light/dark theme
  * restored from storage or the system preference on mount, written to the
  * document and to storage once mounted, and flipped by `toggleTheme`. */
module Theme {
  import opened Wrappers

  /** Browser storage, as key/value strings. */
  type Storage = map<string, string>

  const StorageKey: string := "theme"

  /** The provider's state and what it has written: the theme, whether the
    * mount effect has run, the document's `data-theme` attribute and the
    * browser's storage. */
  datatype State = State(theme: string, mounted: bool, dataTheme: Option<string>, storage: Storage)

  predicate Valid(s: State) {
    s.theme == "light" || s.theme == "dark"
  }

  /** Once mounted, the document and storage carry the current theme. */
  predicate Synced(s: State) {
    s.mounted ==> s.dataTheme == Some(s.theme) && StorageKey in s.storage && s.storage[StorageKey] == s.theme
  }

  /** The first render: light, not mounted, nothing written. */
  function Initial(storage: Storage): (s: State)
    ensures s.theme == "light" && !s.mounted
    ensures Valid(s) && Synced(s)
  {
    State("light", false, None, storage)
  }

  /** The second effect: once mounted, write the theme to the document and to
    * storage; before that, write nothing. */
  function Persist(s: State): (r: State)
    ensures r.theme == s.theme && r.mounted == s.mounted
    ensures !s.mounted ==> r == s
    ensures Synced(r)
    ensures s.mounted ==> r.storage.Keys == s.storage.Keys + {StorageKey}
    ensures forall k :: k in s.storage && k != StorageKey ==> k in r.storage && r.storage[k] == s.storage[k]
  {
    if !s.mounted then s
    else s.(dataTheme := Some(s.theme), storage := s.storage[StorageKey := s.theme])
  }

  /** The theme the mount effect picks: a stored `dark` or `light` wins,
    * anything else defers to the system preference. Whatever storage holds,
    * the result is a valid theme. */
  function Preferred(storage: Storage, prefersDark: bool): (t: string)
    ensures t == "light" || t == "dark"
    ensures StorageKey in storage && (storage[StorageKey] == "dark" || storage[StorageKey] == "light") ==>
      t == storage[StorageKey]
    ensures !(StorageKey in storage && (storage[StorageKey] == "dark" || storage[StorageKey] == "light")) ==>
      (t == "dark" <==> prefersDark)
  {
    if StorageKey in storage && (storage[StorageKey] == "dark" || storage[StorageKey] == "light") then storage[StorageKey]
    else if prefersDark then "dark" else "light"
  }

  /** Mounting: pick the theme, mark mounted, then the write effect runs. */
  function Mount(s: State, prefersDark: bool): (r: State)
    ensures r.mounted && Valid(r) && Synced(r)
    ensures r.theme == Preferred(s.storage, prefersDark)
  {
    Persist(s.(theme := Preferred(s.storage, prefersDark), mounted := true))
  }

  /** `prev === 'light' ? 'dark' : 'light'`. */
  function Flip(theme: string): (t: string)
    ensures t == "light" || t == "dark"
    ensures t == "dark" <==> theme == "light"
  {
    if theme == "light" then "dark" else "light"
  }

  /** `toggleTheme`, followed by the write effect. */
  function Toggle(s: State): (r: State)
    ensures r.theme == Flip(s.theme) && r.mounted == s.mounted
    ensures Valid(r)
    ensures Synced(r)
    ensures !s.mounted ==> r.dataTheme == s.dataTheme && r.storage == s.storage
  {
    Persist(s.(theme := Flip(s.theme)))
  }

  /** Toggling twice restores a valid theme. */
  lemma ToggleInvolution(s: State)
    requires Valid(s)
    ensures Toggle(Toggle(s)).theme == s.theme
  {
  }

  /** The theme a mounted provider shows is the one the next page load
    * restores, whatever the system preference then says. */
  lemma RestoredOnNextMount(s: State, prefersDark: bool)
    requires s.mounted && Valid(s) && Synced(s)
    ensures Mount(Initial(s.storage), prefersDark).theme == s.theme
  {
  }

  /** A run of mounts and toggles. */
  datatype Event = MountEvent(prefersDark: bool) | ToggleEvent

  function Step(s: State, e: Event): State {
    match e
    case MountEvent(p) => if s.mounted then s else Mount(s, p)
    case ToggleEvent => Toggle(s)
  }

  function Run(s: State, events: seq<Event>): State
    decreases |events|
  {
    if |events| == 0 then s else Run(Step(s, events[0]), events[1..])
  }

  /** From the first render on, the theme is always light or dark and, once
    * mounted, the document and storage agree with it; nothing is written
    * while unmounted. */
  lemma {:induction false} RunKeepsInvariant(s: State, events: seq<Event>)
    requires Valid(s) && Synced(s)
    ensures Valid(Run(s, events)) && Synced(Run(s, events))
    ensures !Run(s, events).mounted ==>
      Run(s, events).storage == s.storage && Run(s, events).dataTheme == s.dataTheme
    decreases |events|
  {
    if |events| > 0 {
      var next := Step(s, events[0]);
      assert Run(s, events) == Run(next, events[1..]);
      RunKeepsInvariant(next, events[1..]);
      if next.mounted {
        MountedStaysMounted(next, events[1..]);
      } else {
        assert next.storage == s.storage && next.dataTheme == s.dataTheme;
      }
    }
  }

  lemma {:induction false} MountedStaysMounted(s: State, events: seq<Event>)
    requires s.mounted
    ensures Run(s, events).mounted
    decreases |events|
  {
    if |events| > 0 {
      MountedStaysMounted(Step(s, events[0]), events[1..]);
    }
  }
}

/** The cursor-animation provider (`app/context/CursorAnimationContext.js`):
  * an on/off preference, on by default, restored from storage on mount and
  * written to storage on every toggle. */
module CursorAnimation {
  import opened Wrappers

  type Storage = map<string, string>

  const StorageKey: string := "cursorAnimation"

  datatype State = State(enabled: bool, mounted: bool, storage: Storage)

  /** The first render: enabled, not mounted. */
  function Initial(storage: Storage): (s: State)
    ensures s.enabled && !s.mounted && s.storage == storage
  {
    State(true, false, storage)
  }

  /** `saved === 'true'`: only the text written for an enabled preference
    * reads as enabled, so anything else stored reads as disabled; on the two
    * texts `Show` writes, writing back what was read gives the same text. */
  function Parse(saved: string): (b: bool)
    ensures b <==> saved == Show(true)
    ensures saved == Show(true) || saved == Show(false) ==> Show(b) == saved
  {
    saved == "true"
  }

  /** `newValue.toString()`. */
  function Show(b: bool): (s: string)
    ensures s == "true" || s == "false"
  {
    if b then "true" else "false"
  }

  /** Reading back what was written gives the same preference. */
  lemma ParseShow(b: bool)
    ensures Parse(Show(b)) == b
  {
  }

  /** The mount effect: a stored value decides, true iff it is exactly
    * `'true'`; with nothing stored the preference stays as it was. Nothing
    * is written. */
  function Mount(s: State): (r: State)
    ensures r.mounted && r.storage == s.storage
    ensures StorageKey in s.storage ==> (r.enabled <==> s.storage[StorageKey] == "true")
    ensures StorageKey !in s.storage ==> r.enabled == s.enabled
  {
    var enabled := if StorageKey in s.storage then Parse(s.storage[StorageKey]) else s.enabled;
    s.(enabled := enabled, mounted := true)
  }

  /** `toggleCursorAnimation`: negate and store the new value's text. */
  function Toggle(s: State): (r: State)
    ensures r.enabled == !s.enabled && r.mounted == s.mounted
    ensures StorageKey in r.storage && Parse(r.storage[StorageKey]) == r.enabled
    ensures r.storage.Keys == s.storage.Keys + {StorageKey}
    ensures forall k :: k in s.storage && k != StorageKey ==> k in r.storage && r.storage[k] == s.storage[k]
  {
    var v := !s.enabled;
    ParseShow(v);
    s.(enabled := v, storage := s.storage[StorageKey := Show(v)])
  }

  /** Two toggles restore the preference. */
  lemma ToggleTwice(s: State)
    ensures Toggle(Toggle(s)).enabled == s.enabled
  {
  }

  /** The first page load: the animation is on unless storage holds a value
    * other than `true`, and nothing is written. */
  lemma FirstLoad(storage: Storage)
    ensures Mount(Initial(storage)).enabled <==> StorageKey !in storage || storage[StorageKey] == "true"
    ensures Mount(Initial(storage)).storage == storage
  {
  }

  /** After a toggle, the next page load restores the toggled value. */
  lemma RestoredOnNextMount(s: State)
    ensures Mount(Initial(Toggle(s).storage)).enabled == Toggle(s).enabled
  {
  }

  /** The value a component reads through the context: the provider's
    * state, or the default given to `createContext` outside a provider. */
  datatype ContextValue = ContextUndefined | ContextValue(enabled: bool, mounted: bool)

  const Default: ContextValue := ContextValue(true, false)

  datatype Read = Read(value: ContextValue) | Thrown(message: string)

  /** `useCursorAnimation`: the `undefined` check never fires, because the
    * context always has a value — the provider's or the default. */
  function UseCursorAnimation(provider: Option<State>): (r: Read)
    ensures r.Read?
    ensures provider.None? ==> r.value == Default
    ensures provider.Some? ==> r.value == ContextValue(provider.value.enabled, provider.value.mounted)
  {
    var ctx := if provider.Some? then ContextValue(provider.value.enabled, provider.value.mounted) else Default;
    if ctx == ContextUndefined then Thrown("useCursorAnimation must be used within a CursorAnimationProvider")
    else Read(ctx)
  }
}

=== FILE: seqs.dfy ===
/** Generic sequence vocabulary shared by the editor and the manage page:
  * order-preserving subsequences and JavaScript's `Array.prototype.filter`. */
module Seqs {

  /** `a` can be obtained from `b` by deleting elements, the rest keeping
    * their relative order (checked by greedy embedding). */
  predicate IsSubsequence<T(==)>(a: seq<T>, b: seq<T>)
    decreases |b|
  {
    if |a| == 0 then true
    else if |b| == 0 then false
    else if a[0] == b[0] then IsSubsequence(a[1..], b[1..])
    else IsSubsequence(a, b[1..])
  }

  /** `xs.filter(keep)`: an order-preserving subsequence of `xs` made of
    * exactly the kept elements. */
  function Filter<T(==)>(xs: seq<T>, keep: T -> bool): (r: seq<T>)
    ensures |r| <= |xs|
    ensures forall i :: 0 <= i < |r| ==> keep(r[i])
    ensures forall i :: 0 <= i < |xs| && keep(xs[i]) ==> xs[i] in r
    ensures forall i :: 0 <= i < |r| ==> r[i] in xs
    ensures IsSubsequence(r, xs)
  {
    if |xs| == 0 then []
    else if keep(xs[0]) then
      var rest := Filter(xs[1..], keep);
      assert forall i :: 1 <= i < |xs| ==> xs[i] == xs[1..][i - 1];
      assert ([xs[0]] + rest)[1..] == rest;
      [xs[0]] + rest
    else
      var rest := Filter(xs[1..], keep);
      assert forall i :: 1 <= i < |xs| ==> xs[i] == xs[1..][i - 1];
      rest
  }

  /** The filter keeps each kept element exactly as often as it occurs, and
    * drops every other element. */
  lemma {:induction false} FilterMultiset<T>(xs: seq<T>, keep: T -> bool, x: T)
    ensures keep(x) ==> multiset(Filter(xs, keep))[x] == multiset(xs)[x]
    ensures !keep(x) ==> multiset(Filter(xs, keep))[x] == 0
    decreases |xs|
  {
    if |xs| > 0 {
      FilterMultiset(xs[1..], keep, x);
      assert xs == [xs[0]] + xs[1..];
    }
  }

  /** A filter that keeps everything is the identity. */
  lemma {:induction false} FilterAll<T>(xs: seq<T>, keep: T -> bool)
    requires forall i :: 0 <= i < |xs| ==> keep(xs[i])
    ensures Filter(xs, keep) == xs
    decreases |xs|
  {
    if |xs| > 0 {
      FilterAll(xs[1..], keep);
      assert xs == [xs[0]] + xs[1..];
    }
  }

  /** Filtering distributes over concatenation. */
  lemma {:induction false} FilterAppend<T>(a: seq<T>, b: seq<T>, keep: T -> bool)
    ensures Filter(a + b, keep) == Filter(a, keep) + Filter(b, keep)
    decreases |a|
  {
    if |a| == 0 {
      assert a + b == b;
    } else {
      assert (a + b)[1..] == a[1..] + b;
      FilterAppend(a[1..], b, keep);
    }
  }

  /** A one-element sequence is kept whole or dropped. */
  lemma FilterOne<T>(x: T, keep: T -> bool)
    ensures Filter([x], keep) == if keep(x) then [x] else []
  {
    assert [x][1..] == [];
  }

  /** `a` is an initial segment of `b`. */
  predicate IsPrefix<T(==)>(a: seq<T>, b: seq<T>) {
    |a| <= |b| && a == b[..|a|]
  }
}

=== FILE: sessions.dfy ===
/** The two admin cookies as a small state machine: which login opens which
    route, and what logging out leaves behind. */
module Sessions {
  import opened Wrappers
  import opened Json
  import opened Http
  import AuthRoutes
  import Middleware
  import AdminCreate
  import AdminDelete
  import AdminUpdate
  import CommentDelete

  /** The routes that check `isAdmin` (create and delete) accept the jar. */
  predicate PostingAllowed(jar: Jar) {
    AdminCreate.Authorised(jar) && AdminDelete.Authorised(jar)
  }

  /** The routes that check `admin-authenticated` (middleware, update,
      comment delete and check) accept the jar. */
  predicate SessionOpen(jar: Jar) {
    && Middleware.HasSession(jar)
    && AuthRoutes.Check(jar)
    && AdminUpdate.Authorised(jar)
    && CommentDelete.Authorised(jar)
  }

  lemma PostingAllowedIff(jar: Jar)
    ensures PostingAllowed(jar) <==> CookieValue(jar, "isAdmin") == Some("1")
  {
  }

  lemma SessionOpenIff(jar: Jar)
    ensures SessionOpen(jar) <==> CookieValue(jar, "admin-authenticated") == Some("true")
  {
  }

  /** A successful `/api/auth/login` opens create and delete, and leaves the
      `admin-authenticated` routes exactly as they were: on its own it does
      not pass the middleware. */
  lemma {:induction false} AuthLoginOpensPostingOnly(jar: Jar, body: Result<Value, string>, secret: Option<string>)
    requires AuthRoutes.AuthLogin(body, secret).cookies != []
    ensures var jar' := ApplyCookies(jar, AuthRoutes.AuthLogin(body, secret).cookies);
            && PostingAllowed(jar')
            && (SessionOpen(jar') <==> SessionOpen(jar))
  {
    var ops := AuthRoutes.AuthLogin(body, secret).cookies;
    var jar' := ApplyCookies(jar, ops);
    assert ops == [SetCookie("isAdmin", "1", AuthRoutes.IsAdminOptions)];
    ApplyOneCookie(jar, ops[0]);
    assert jar' == jar["isAdmin" := "1"];
    PostingAllowedIff(jar');
    SessionOpenIff(jar');
    SessionOpenIff(jar);
  }

  /** A successful `/api/admin/login` opens the `admin-authenticated`
      routes and leaves create and delete exactly as they were. */
  lemma {:induction false} AdminLoginOpensSessionOnly(jar: Jar, body: Result<Value, string>, secret: Option<string>,
                                                      nodeEnv: string)
    requires AuthRoutes.AdminLogin(body, secret, nodeEnv).cookies != []
    ensures var jar' := ApplyCookies(jar, AuthRoutes.AdminLogin(body, secret, nodeEnv).cookies);
            && SessionOpen(jar')
            && (PostingAllowed(jar') <==> PostingAllowed(jar))
  {
    var ops := AuthRoutes.AdminLogin(body, secret, nodeEnv).cookies;
    var jar' := ApplyCookies(jar, ops);
    assert ops == [SetCookie("admin-authenticated", "true", AuthRoutes.SessionOptions(nodeEnv))];
    ApplyOneCookie(jar, ops[0]);
    assert jar' == jar["admin-authenticated" := "true"];
    PostingAllowedIff(jar');
    PostingAllowedIff(jar);
    SessionOpenIff(jar');
  }

  /** Logging out closes the session routes but keeps create and delete
      open when they were, and a second logout changes nothing. */
  lemma {:induction false} LogoutKeepsPosting(jar: Jar)
    ensures var jar' := ApplyCookies(jar, AuthRoutes.Logout().cookies);
            && !SessionOpen(jar')
            && (PostingAllowed(jar') <==> PostingAllowed(jar))
            && ApplyCookies(jar', AuthRoutes.Logout().cookies) == jar'
  {
    var jar' := ApplyCookies(jar, AuthRoutes.Logout().cookies);
    assert jar' == jar - {"admin-authenticated"};
    PostingAllowedIff(jar');
    PostingAllowedIff(jar);
    SessionOpenIff(jar');
  }

  /** `check` answers true exactly when the middleware would serve a guarded
      page to the same browser. */
  lemma CheckMatchesGuard(jar: Jar, path: string)
    requires Middleware.Guarded(path)
    ensures AuthRoutes.Check(jar) <==> Middleware.Decide(path, jar).Next?
  {
    SessionOpenIff(jar);
  }

  /** After logout every guarded page redirects to the login page. */
  lemma LogoutRedirectsGuardedPages(jar: Jar, path: string)
    requires Middleware.Guarded(path)
    ensures Middleware.Decide(path, ApplyCookies(jar, AuthRoutes.Logout().cookies)) == Middleware.Redirect("/admin/login")
  {
  }
}

=== FILE: store.dfy ===
/** The document store the admin routes write to: the `thoughts` collection
    and each thought's `comments` subcollection. Document ids are the values
    the handlers pass to `doc(...)`. */
module Store {
  import opened Wrappers
  import opened Json

  /** A stored document: field name to value. */
  type Doc = map<string, Value>

  datatype Store = Store(thoughts: map<Value, Doc>, comments: map<(Value, Value), Doc>)

  /** Message of a failed `update` on a missing document. */
  const NotFound: string := "NOT_FOUND: No document to update"

  /** A value `doc(...)` accepts as one document id: a non-empty string
      without `/`. Anything else makes `doc` throw before the store is
      touched. */
  predicate DocumentId(v: Value) {
    v.Str? && v.s != "" && '/' !in v.s
  }

  /** Message of the error `doc(...)` throws for a value that is not a
      document id. */
  const InvalidPath: string := "Value for argument \"documentPath\" is not a valid resource path."

  /** `collection('thoughts').add(doc)`, stored under the fresh id the store
      assigns: the collection grows by exactly that one thought. */
  function Add(s: Store, id: string, doc: Doc): (s': Store)
    requires Str(id) !in s.thoughts
    ensures |s'.thoughts| == |s.thoughts| + 1
    ensures s'.thoughts.Keys == s.thoughts.Keys + {Str(id)}
    ensures s'.thoughts[Str(id)] == doc
    ensures forall k :: k in s.thoughts && k != Str(id) ==> s'.thoughts[k] == s.thoughts[k]
    ensures s'.comments == s.comments
  {
    Store(s.thoughts[Str(id) := doc], s.comments)
  }

  /** `doc(id).update(data)`: merges `data` into an existing thought and
      fails when there is none. */
  function Update(s: Store, id: Value, data: Doc): (r: Result<Store, string>)
    ensures r.Failure? <==> id !in s.thoughts
    ensures r.Success? ==> r.value.thoughts.Keys == s.thoughts.Keys
    ensures r.Success? ==> r.value.thoughts[id].Keys == s.thoughts[id].Keys + data.Keys
    ensures r.Success? ==> forall f :: f in data ==> r.value.thoughts[id][f] == data[f]
    ensures r.Success? ==> forall f :: f in s.thoughts[id] && f !in data ==>
                             r.value.thoughts[id][f] == s.thoughts[id][f]
    ensures r.Success? ==> forall k :: k in s.thoughts && k != id ==> r.value.thoughts[k] == s.thoughts[k]
    ensures r.Success? ==> r.value.comments == s.comments
  {
    if id !in s.thoughts then Failure(NotFound)
    else Success(Store(s.thoughts[id := s.thoughts[id] + data], s.comments))
  }

  /** `collection('thoughts').doc(id).delete()`: removes the thought (a
      no-op when absent) and, as the store does, leaves its comments
      subcollection in place. */
  function DeleteThought(s: Store, id: Value): (s': Store)
    ensures s'.thoughts.Keys == s.thoughts.Keys - {id}
    ensures forall k :: k in s'.thoughts ==> s'.thoughts[k] == s.thoughts[k]
    ensures s'.comments == s.comments
  {
    Store(s.thoughts - {id}, s.comments)
  }

  /** `doc(thoughtId).collection('comments').doc(commentId).delete()`. */
  function DeleteComment(s: Store, thoughtId: Value, commentId: Value): (s': Store)
    ensures s'.thoughts == s.thoughts
    ensures s'.comments.Keys == s.comments.Keys - {(thoughtId, commentId)}
    ensures forall k :: k in s'.comments ==> s'.comments[k] == s.comments[k]
  {
    Store(s.thoughts, s.comments - {(thoughtId, commentId)})
  }
}

=== FILE: strings.dfy ===
/** String operations of the JavaScript standard library that the modelled
    code relies on, over `string` = `seq<char>`. */
module Strings {

  /** `s.startsWith(p)`. */
  predicate StartsWith(s: string, p: string) {
    |p| <= |s| && s[..|p|] == p
  }

  /** `s.includes(t)`: `t` occurs at some offset of `s`. */
  predicate Contains(s: string, t: string) {
    exists i :: 0 <= i <= |s| - |t| && OccursAt(s, t, i)
  }

  /** `t` occurs in `s` starting at offset `i`. */
  predicate OccursAt(s: string, t: string, i: int) {
    0 <= i && i + |t| <= |s| && s[i..i + |t|] == t
  }

  lemma StartsWithTrans(s: string, p: string, q: string)
    requires StartsWith(s, p) && StartsWith(p, q)
    ensures StartsWith(s, q)
  {
    assert s[..|q|] == s[..|p|][..|q|];
  }

  // ---------------------------------------------------------------------
  // Case folding

  /** `toLowerCase` restricted to ASCII letters; every other character is
      left as it is. */
  function LowerChar(ch: char): char {
    if 'A' <= ch <= 'Z' then (ch as int + 32) as char else ch
  }

  function Lower(s: string): (r: string)
    ensures |r| == |s|
    ensures forall i :: 0 <= i < |s| ==> r[i] == LowerChar(s[i])
  {
    if |s| == 0 then [] else [LowerChar(s[0])] + Lower(s[1..])
  }

  // ---------------------------------------------------------------------
  // split / join on a single separator character

  /** Index of the first occurrence of `c` in `s`. */
  function FirstIndex(s: string, c: char): (k: nat)
    requires c in s
    ensures k < |s| && s[k] == c && c !in s[..k]
  {
    if s[0] == c then 0
    else
      var k := 1 + FirstIndex(s[1..], c);
      assert s[..k] == [s[0]] + s[1..][..k - 1];
      k
  }

  /** The first occurrence is the only position before which `c` is absent. */
  lemma FirstIndexUnique(s: string, c: char, k: nat)
    requires k < |s| && s[k] == c && c !in s[..k]
    ensures FirstIndex(s, c) == k
  {
  }

  /** `s.split(c)` with a one-character separator: always at least one part,
      and no part contains the separator. */
  function Split(s: string, c: char): (parts: seq<string>)
    ensures |parts| >= 1
    ensures forall i :: 0 <= i < |parts| ==> c !in parts[i]
    ensures c in s ==> |parts| >= 2
    decreases |s|
  {
    if c !in s then [s]
    else
      var k := FirstIndex(s, c);
      [s[..k]] + Split(s[k + 1..], c)
  }

  /** `parts.join(c)`; the empty array joins to the empty string. */
  function Join(parts: seq<string>, c: char): string {
    if |parts| == 0 then ""
    else if |parts| == 1 then parts[0]
    else parts[0] + [c] + Join(parts[1..], c)
  }

  lemma JoinCons(a: string, rest: seq<string>, c: char)
    requires |rest| >= 1
    ensures Join([a] + rest, c) == a + [c] + Join(rest, c)
  {
    assert ([a] + rest)[1..] == rest;
  }

  lemma JoinThree(a: string, b: string, c: string, sep: char)
    ensures Join([a, b, c], sep) == a + [sep] + b + [sep] + c
  {
    assert [a, b, c][1..] == [b, c];
    assert [b, c][1..] == [c];
    assert Join([c], sep) == c;
    assert Join([b, c], sep) == b + [sep] + c;
  }

  /** Joining the parts of a split gives back the original string. */
  lemma {:induction false} JoinSplit(s: string, c: char)
    ensures Join(Split(s, c), c) == s
    decreases |s|
  {
    if c in s {
      var k := FirstIndex(s, c);
      JoinSplit(s[k + 1..], c);
      JoinCons(s[..k], Split(s[k + 1..], c), c);
      assert s == s[..k] + [c] + s[k + 1..];
    }
  }

  /** Splitting a join of separator-free parts gives back the parts. */
  lemma {:induction false} SplitJoin(parts: seq<string>, c: char)
    requires |parts| >= 1
    requires forall i :: 0 <= i < |parts| ==> c !in parts[i]
    ensures Split(Join(parts, c), c) == parts
  {
    if |parts| > 1 {
      var tail := parts[1..];
      SplitJoin(tail, c);
      var p := parts[0];
      assert Join(parts, c) == p + [c] + Join(tail, c);
      SplitAtFirst(p, Join(tail, c), c);
      assert parts == [p] + tail;
    }
  }

  /** Splitting around a separator occurrence splits each side separately. */
  lemma {:induction false} SplitAppend(a: string, b: string, c: char)
    ensures Split(a + [c] + b, c) == Split(a, c) + Split(b, c)
    decreases |a|
  {
    if c !in a {
      SplitAtFirst(a, b, c);
    } else {
      var k := FirstIndex(a, c);
      var head, rest := a[..k], a[k + 1..];
      assert a == head + [c] + rest;
      SplitAtFirst(head, rest + [c] + b, c);
      Regroup(head, rest, b, c);
      SplitAppend(rest, b, c);
      SplitAtFirst(head, rest, c);
      ConcatAssoc([head], Split(rest, c), Split(b, c));
    }
  }

  lemma Regroup(head: string, rest: string, b: string, c: char)
    ensures (head + [c] + rest) + [c] + b == head + [c] + (rest + [c] + b)
  {
  }

  /** Splitting at the first separator, with a separator-free head. */
  lemma SplitAtFirst(head: string, tail: string, c: char)
    requires c !in head
    ensures Split(head + [c] + tail, c) == [head] + Split(tail, c)
  {
    var s := head + [c] + tail;
    assert s[..|head|] == head && s[|head|] == c;
    FirstIndexUnique(s, c, |head|);
    assert s[|head| + 1..] == tail;
  }

  /** `stem` is the prefix of `s` before its last `c`. */
  predicate IsStemBefore(s: string, stem: string, c: char) {
    |stem| < |s| && s[|stem|] == c && stem == s[..|stem|] && c !in s[|stem| + 1..]
  }

  /** Joining all parts but the last of `s.split(c)` keeps exactly the
      prefix of `s` before its last `c`. */
  lemma {:induction false} JoinAllButLast(s: string, c: char)
    requires c in s
    ensures IsStemBefore(s, Join(DropLast(Split(s, c)), c), c)
    decreases |s|
  {
    var k := FirstIndex(s, c);
    var head := s[..k];
    var rest := s[k + 1..];
    assert s == head + [c] + rest;
    var rp := Split(rest, c);
    assert Split(s, c) == [head] + rp;
    assert DropLast([head] + rp) == [head] + DropLast(rp);
    if c !in rest {
      assert DropLast(rp) == [];
      assert Join([head], c) == head;
    } else {
      JoinAllButLast(rest, c);
      var rs := Join(DropLast(rp), c);
      JoinCons(head, DropLast(rp), c);
      StemExtend(head, rest, rs, c);
    }
  }

  function DropLast<T>(xs: seq<T>): seq<T>
    requires |xs| >= 1
  {
    xs[..|xs| - 1]
  }

  /** A non-empty sequence is its initial part followed by its last element. */
  lemma DropLastSnoc<T>(xs: seq<T>)
    requires |xs| >= 1
    ensures xs == DropLast(xs) + [xs[|xs| - 1]]
  {
  }

  lemma ConcatAssoc<T>(x: seq<T>, y: seq<T>, z: seq<T>)
    ensures (x + y) + z == x + (y + z)
  {
  }

  /** Dropping the last element of `a + b`, with `b` non-empty, drops it
      from `b`. */
  lemma DropLastAppend<T>(a: seq<T>, b: seq<T>)
    requires |b| >= 1
    ensures DropLast(a + b) == a + DropLast(b)
    ensures (a + b)[|a + b| - 1] == b[|b| - 1]
  {
  }

  lemma StemExtend(head: string, rest: string, rs: string, c: char)
    requires IsStemBefore(rest, rs, c)
    ensures IsStemBefore(head + [c] + rest, head + [c] + rs, c)
  {
    var s := head + [c] + rest;
    var stem := head + [c] + rs;
    assert s[..|stem|] == head + [c] + rest[..|rs|];
    assert s[|stem| + 1..] == rest[|rs| + 1..];
  }

  // ---------------------------------------------------------------------
  // trim

  /** The characters `String.prototype.trim` removes: ECMAScript WhiteSpace
      and LineTerminator. */
  predicate IsSpace(ch: char) {
    || ch == ' ' || ch == '\t' || ch == '\n' || ch == '\r'
    || ch == '\U{000B}' || ch == '\U{000C}' || ch == '\U{00A0}' || ch == '\U{1680}'
    || ('\U{2000}' <= ch <= '\U{200A}')
    || ch == '\U{2028}' || ch == '\U{2029}' || ch == '\U{202F}' || ch == '\U{205F}'
    || ch == '\U{3000}' || ch == '\U{FEFF}'
  }

  function TrimStart(s: string): (r: string)
    ensures |r| <= |s| && r == s[|s| - |r|..]
    ensures forall i :: 0 <= i < |s| - |r| ==> IsSpace(s[i])
    ensures |r| > 0 ==> !IsSpace(r[0])
  {
    if |s| > 0 && IsSpace(s[0]) then
      var r := TrimStart(s[1..]);
      assert s[1..][|s| - 1 - |r|..] == s[|s| - |r|..];
      assert forall i :: 1 <= i < |s| - |r| ==> s[i] == s[1..][i - 1];
      r
    else s
  }

  function TrimEnd(s: string): (r: string)
    ensures |r| <= |s| && r == s[..|r|]
    ensures forall i :: |r| <= i < |s| ==> IsSpace(s[i])
    ensures |r| > 0 ==> !IsSpace(r[|r| - 1])
  {
    if |s| > 0 && IsSpace(s[|s| - 1]) then
      var r := TrimEnd(s[..|s| - 1]);
      assert s[..|s| - 1][..|r|] == s[..|r|];
      assert forall i :: |r| <= i < |s| - 1 ==> s[i] == s[..|s| - 1][i];
      r
    else s
  }

  /** `s.trim()`: the longest infix of `s` that neither starts nor ends with
      white space, everything around it being white space. */
  function Trim(s: string): (r: string)
    ensures |r| > 0 ==> !IsSpace(r[0]) && !IsSpace(r[|r| - 1])
    ensures exists i :: 0 <= i <= |s| - |r| && TrimmedAt(s, r, i)
  {
    var t := TrimStart(s);
    var r := TrimEnd(t);
    TrimmedAtStartEnd(s, t, r);
    r
  }

  lemma TrimmedAtStartEnd(s: string, t: string, r: string)
    requires |t| <= |s| && t == s[|s| - |t|..]
    requires forall k :: 0 <= k < |s| - |t| ==> IsSpace(s[k])
    requires |r| <= |t| && r == t[..|r|]
    requires forall k :: |r| <= k < |t| ==> IsSpace(t[k])
    ensures TrimmedAt(s, r, |s| - |t|)
  {
    var i := |s| - |t|;
    assert r == s[i..i + |r|];
    forall k | i + |r| <= k < |s|
      ensures IsSpace(s[k])
    {
      assert s[k] == t[k - i];
    }
  }

  /** Leading white space is dropped up to the first other character. */
  lemma {:induction false} TrimStartSpaces(pre: string, rest: string)
    requires forall k :: 0 <= k < |pre| ==> IsSpace(pre[k])
    requires |rest| > 0 && !IsSpace(rest[0])
    ensures TrimStart(pre + rest) == rest
    decreases |pre|
  {
    if |pre| > 0 {
      assert (pre + rest)[1..] == pre[1..] + rest;
      TrimStartSpaces(pre[1..], rest);
    } else {
      assert pre + rest == rest;
    }
  }

  /** Trailing white space is dropped back to the last other character. */
  lemma {:induction false} TrimEndSpaces(rest: string, post: string)
    requires forall k :: 0 <= k < |post| ==> IsSpace(post[k])
    requires |rest| > 0 && !IsSpace(rest[|rest| - 1])
    ensures TrimEnd(rest + post) == rest
    decreases |post|
  {
    if |post| > 0 {
      assert (rest + post)[..|rest + post| - 1] == rest + post[..|post| - 1];
      TrimEndSpaces(rest, post[..|post| - 1]);
    } else {
      assert rest + post == rest;
    }
  }

  /** `trim` gives back exactly the text that white space surrounds, provided
      that text neither starts nor ends with white space. */
  lemma TrimSurrounded(pre: string, core: string, post: string)
    requires forall k :: 0 <= k < |pre| ==> IsSpace(pre[k])
    requires forall k :: 0 <= k < |post| ==> IsSpace(post[k])
    requires |core| > 0 && !IsSpace(core[0]) && !IsSpace(core[|core| - 1])
    ensures Trim(pre + core + post) == core
  {
    assert pre + core + post == pre + (core + post);
    TrimStartSpaces(pre, core + post);
    TrimEndSpaces(core, post);
  }

  /** `r` is the infix of `s` at offset `i` and only white space surrounds it. */
  predicate TrimmedAt(s: string, r: string, i: int) {
    && 0 <= i && i + |r| <= |s| && r == s[i..i + |r|]
    && (forall k :: 0 <= k < i ==> IsSpace(s[k]))
    && (forall k :: i + |r| <= k < |s| ==> IsSpace(s[k]))
  }

  // ---------------------------------------------------------------------
  // Number formatting

  predicate IsDigit(ch: char) {
    '0' <= ch <= '9'
  }

  function DigitChar(d: nat): (ch: char)
    requires d < 10
    ensures IsDigit(ch)
  {
    ('0' as int + d) as char
  }

  /** Decimal rendering of a natural number, as JavaScript prints it. */
  function NatToString(n: nat): (s: string)
    ensures |s| >= 1
    ensures forall i :: 0 <= i < |s| ==> IsDigit(s[i])
    ensures s[0] == '0' ==> n == 0
  {
    if n < 10 then [DigitChar(n)] else NatToString(n / 10) + [DigitChar(n % 10)]
  }

  function DigitValue(ch: char): (d: nat)
    requires IsDigit(ch)
    ensures d < 10
  {
    ch as int - '0' as int
  }

  /** The value of a string of decimal digits. */
  function DigitsValue(s: string): nat
    requires forall i :: 0 <= i < |s| ==> IsDigit(s[i])
  {
    if |s| == 0 then 0
    else DigitsValue(s[..|s| - 1]) * 10 + DigitValue(s[|s| - 1])
  }

  /** Reading a rendered number back gives the number. */
  lemma {:induction false} NatToStringRoundTrip(n: nat)
    ensures DigitsValue(NatToString(n)) == n
  {
    if n >= 10 {
      var s := NatToString(n);
      NatToStringRoundTrip(n / 10);
      assert s[..|s| - 1] == NatToString(n / 10);
    }
  }

  /** Template-literal interpolation of an integer (`${n}`). */
  function IntToString(n: int): (s: string)
    ensures n >= 0 ==> s == NatToString(n)
    ensures n < 0 ==> s == "-" + NatToString(-n)
  {
    if n < 0 then "-" + NatToString(-n) else NatToString(n)
  }
}

=== FILE: wrappers.dfy ===
/** Option and Result, the two failure-carrying datatypes the model uses in
    place of JavaScript's `null`/`undefined` and thrown exceptions. */
module Wrappers {

  datatype Option<+T> = None | Some(value: T) {

    /** The wrapped value, or `default` when there is none. */
    function GetOr(default: T): T {
      match this
      case Some(v) => v
      case None => default
    }
  }

  datatype Result<+R, +E> = Success(value: R) | Failure(error: E)
}
